=== FILE: README.md ===
# silk dependency-injection core: index construction, suppliers, type constructors, service methods

This project models, in Dafny, the small sequential algorithms that sit
around the resolution engine of the silk dependency-injection container:

- **Injectorizer** — building the resolution index. All bindings
  ("suppliables") are sorted by the canonical name of their raw type and,
  within one raw type, by precision. The sorted sequence is cut into one run
  per raw type, and each binding becomes an injectron that carries its sorted
  position (ordinal) and the total number of bindings. An injectron never
  produces a value itself: it delegates to its repository.
- **Supply** — the supplier combinators: the always-failing placeholder for
  required bindings, the constant supplier, the array-to-list and
  array-to-set bridges, the provider bridge, the state-dependent name switch
  with its single retry under the name of the `null` state, the elements supplier, the
  index-wise `resolveParameters` fill, and the `describe` renderings.
- **Typecast** — the constructors of `List<T>`, `Set<T>`, `Collection<T>`,
  `Provider<T>`, `Factory<T>`, `Injectron<T>` and `Injectron[]<T>` type
  descriptors, with their `Class` overloads.
- **ServiceModule** — the service-method provider: a first-match search over
  service classes and their methods, a per-class methods cache and a
  per-signature lookup cache, and the lazy service method's assembly of the
  argument array from the call argument, pre-resolved never-expiring values
  and freshly resolved ones.

The engine these pieces talk to is not part of this model. `Injector` is a
total function from a dependency to `Result<Value, Error>`; a missing
binding is `Failure(NoSuchResource(..))`. `Precision.comparePrecision` is an
abstract three-way comparator. A repository's `serve` is an abstract
function. `Type.toString`, `Name.named`, a bound parameter's `supply`, and the
service strategy are parameters as well. The `Inject` module fixes the
vocabulary: classes, types, names, instances, dependencies, values and
errors. Java `null` is `Value.Null` (for values) or `Option.None` (for
methods and injectrons). Java arrays and lists are sequences. A `HashSet` is
a mathematical set.

Modelling choices that follow the code:

- A class is identified by its canonical name. The source compares raw types
  by identity and orders them by canonical name. The model makes the two
  agree. An array class's canonical name is its component's name followed by
  `[]`.
- `Arrays.sort` is modelled as a stable insertion sort. `comparePrecision`
  is required to keep the `java.util.Comparator` contract on resources of
  one raw type: a total preorder whose sign flips when its arguments are
  swapped. Under that contract the sort Java uses is stable, and a total
  preorder has only one stable sorted permutation, so this is the order
  Java produces. The model proves permutation and sortedness; stability is
  not proved (see "Left out").
- The service layer and the index come from the `de.jbee.inject` packages;
  `Typecast` and `Supply` from `se.jbee.inject`. As classes are identified
  by canonical name, the `Injectron` the service layer requests is
  `de.jbee.inject.Injectron`, a different class from the
  `se.jbee.inject.Injectron` that `Typecast` wraps with.
- The grouping loop of `injectrons` handles its last position in its own
  branch. The model runs the loop over the other positions (`ClosedRuns`)
  and then performs that branch once (`GroupRuns`). This is the same
  sequence of `res.put` calls.
- Ordinals are positions in the *sorted* sequence. They are not
  declaration order (src/de/jbee/inject/Injectorizer.java:65-67).
- The two caches of the service-method provider are one sequential state
  (`Caches`). Two counters make "without consulting the strategy" and
  "without searching" observable. A cached `null` is stored as `None` and
  reads as a miss, as `methodCache.get` does in the source.
- `Dependency.onTypeParameter` and `Dependency.dependency(type)` are not
  part of this model. Both are taken to ask for the given type in the same
  injection hierarchy, under one abstract name (`unnamed`) that the model
  leaves open. The provider bridge therefore carries the request's name when
  it is not the default name, and `unnamed` otherwise. The same `unnamed`
  reaches the service layer's injectron and value requests, through
  `DependencyOn`.
- `Name.named` is an abstract function. The "try default" retry of the
  state-dependent supplier asks under `Name.named(null)`, whatever name that
  is; the model does not assume it is the default name.
- An injectron's injectable is an opaque handle. It stands for
  `Suppliers.asInjectable(supplier, resolver)`, made once per binding with the
  index's one resolver, so the handle is determined by the binding's supplier.

## Model

| member | source | states |
|---|---|---|
| `JavaString.CompareToZeroIffEqual` | src/de/jbee/inject/Injectorizer.java:28-29 | the canonical-name comparison is zero exactly on equal names, so different raw types never compare equal |
| `JavaString.CompareToAntisymmetric` | src/de/jbee/inject/Injectorizer.java:28-29 | swapping the two names negates the comparison |
| `JavaString.CompareToTransitive` | src/de/jbee/inject/Injectorizer.java:28-29 | name order is transitive |
| `JavaString.CompareToTotalOrder` | src/de/jbee/inject/Injectorizer.java:28-29 | `compareTo <= 0` is total and transitive on names; the sort comparator's order across raw types rests on it |
| `JavaString.Join` | src/core/se/jbee/inject/bootstrap/Supply.java:521-523 | no elements join to the empty string, and a single element to itself |
| `JavaString.JoinAppend` | src/core/se/jbee/inject/bootstrap/Supply.java:521-523 | joining two non-empty lists in a row puts exactly one `, ` between their joins |
| `JavaString.SplitJoin` | src/core/se/jbee/inject/bootstrap/Supply.java:521-523 | cutting at every `, ` gives back the joined elements when none of them contains a comma |
| `JavaString.ArrayToString` | src/core/se/jbee/inject/bootstrap/Supply.java:521-523 | `Arrays.toString` of no elements is `[]`; every rendering is the joined elements between square brackets |
| `JavaString.ArrayToStringRoundTrip` | src/core/se/jbee/inject/bootstrap/Supply.java:521-523 | elements without a comma are read back from their `Arrays.toString` rendering; only `[""]` is excluded, as it renders like the empty array |
| `Inject.ArrayClass` | src/core/se/jbee/inject/bootstrap/Supply.java:131 | the array class of `c` is an array class whose component is `c` again |
| `Inject.ArrayType` | src/core/se/jbee/inject/bootstrap/Supply.java:130-131 | `getArrayType` yields an array type whose element type is the original type |
| `Inject.TypeParameter` | src/core/se/jbee/inject/bootstrap/Supply.java:130 | `parameter(i)` succeeds exactly when the argument exists and returns it; otherwise it fails with an index error |
| `Inject.Dependency.OnTypeParameter` | src/core/se/jbee/inject/bootstrap/Supply.java:368 | the request for the first type argument exists exactly when the type has one; it is for that argument under the given `unnamed` name, keeping the request's hierarchy and expiry flag |
| `Typecast.WrappedTypeOf` | src/core/se/jbee/inject/container/Typecast.java:31-88 | each constructor's raw type is its wrapper class and its argument list is exactly `[t]` |
| `Typecast.ListTypeOf` | src/core/se/jbee/inject/container/Typecast.java:31-34 | raw `List`, arguments exactly `[t]`, exact (not upper-bounded) |
| `Typecast.SetTypeOf` | src/core/se/jbee/inject/container/Typecast.java:40-43 | raw `Set`, arguments exactly `[t]` |
| `Typecast.CollectionTypeOf` | src/core/se/jbee/inject/container/Typecast.java:49-52 | raw `Collection`, arguments exactly `[t]` |
| `Typecast.ProviderTypeOf` | src/core/se/jbee/inject/container/Typecast.java:58-61 | raw `Provider`, arguments exactly `[t]` |
| `Typecast.FactoryTypeOf` | src/core/se/jbee/inject/container/Typecast.java:67-70 | raw `Factory`, arguments exactly `[t]` |
| `Typecast.InjectronTypeOf` | src/core/se/jbee/inject/container/Typecast.java:76-79 | raw `Injectron`, arguments exactly `[t]` |
| `Typecast.InjectronsTypeOf` | src/core/se/jbee/inject/container/Typecast.java:85-88 | raw type is the array class of `Injectron`, arguments exactly `[t]` |
| `Typecast.ListTypeOfClass` | src/core/se/jbee/inject/container/Typecast.java:27-29 | the `Class` overload builds `List` over `raw(c)`, exact (not upper-bounded) |
| `Typecast.SetTypeOfClass` | src/core/se/jbee/inject/container/Typecast.java:36-38 | the `Class` overload builds `Set` over `raw(c)`, exact (not upper-bounded) |
| `Typecast.CollectionTypeOfClass` | src/core/se/jbee/inject/container/Typecast.java:45-47 | the `Class` overload builds `Collection` over `raw(c)`, exact (not upper-bounded) |
| `Typecast.ProviderTypeOfClass` | src/core/se/jbee/inject/container/Typecast.java:54-56 | the `Class` overload builds `Provider` over `raw(c)`, exact (not upper-bounded) |
| `Typecast.FactoryTypeOfClass` | src/core/se/jbee/inject/container/Typecast.java:63-65 | the `Class` overload builds `Factory` over `raw(c)`, exact (not upper-bounded) |
| `Typecast.InjectronTypeOfClass` | src/core/se/jbee/inject/container/Typecast.java:72-74 | the `Class` overload builds `Injectron` over `raw(c)`, exact (not upper-bounded) |
| `Typecast.InjectronsTypeOfClass` | src/core/se/jbee/inject/container/Typecast.java:81-83 | the `Class` overload builds `Injectron[]` over `raw(c)`, exact (not upper-bounded) |
| `Typecast.ClassOverloadsAreRaw` | src/core/se/jbee/inject/container/Typecast.java:27-83 | each `Class` overload is the `Type` overload applied to `raw(c)` |
| `Typecast.WrapperClassInjective` | src/core/se/jbee/inject/container/Typecast.java:33-87 | the seven wrapper raw classes are pairwise distinct |
| `Typecast.WrappedTypeOfInjective` | src/core/se/jbee/inject/container/Typecast.java:32-88 | two constructed types are equal exactly when wrapper and argument are equal: the constructors are injective and never overlap |
| `Supply.ElementsSupplier` | src/core/se/jbee/inject/bootstrap/Supply.java:66-68 | the elements supplier keeps the elements, and its element type is the one whose array type was given |
| `Supply.Supply` | src/core/se/jbee/inject/bootstrap/Supply.java:128-491 | dispatching `supply`: the placeholder fails with "Should never be called!", a constant succeeds with its constant, both bridges fail without a type argument, a list bridge yields a list and a set bridge a set, the provider bridge a lazy provider, a failed state resolution fails the state-dependent supplier, and the elements supplier yields an array with one entry per element |
| `Supply.SupplyRequired` | src/core/se/jbee/inject/bootstrap/Supply.java:488-491 | the required placeholder fails on every call with "Should never be called!" |
| `Supply.RequiredNeverSupplies` | src/core/se/jbee/inject/bootstrap/Supply.java:48-56 | supplying through `required()` yields no value, for any dependency and injector |
| `Supply.SupplyConstant` | src/core/se/jbee/inject/bootstrap/Supply.java:247-250 | the constant supplier succeeds with its constant |
| `Supply.ConstantIgnoresDependency` | src/core/se/jbee/inject/bootstrap/Supply.java:247-250 | the result does not depend on the dependency or the injector |
| `Supply.Adapt` | src/core/se/jbee/inject/bootstrap/Supply.java:188-212 | an array adapts to the list of its elements in order, or to the set of exactly its elements; `null` is a null-pointer failure, a non-array a cast failure |
| `Supply.SupplyBridged` | src/core/se/jbee/inject/bootstrap/Supply.java:128-136 | a bridge resolves the array type of the requested type's first argument and adapts it; no argument, or a failed resolution, is a failure |
| `Supply.ListBridgeKeepsArray` | src/core/se/jbee/inject/bootstrap/Supply.java:195-198 | the list bridge yields a list of the resolved array's length with the same element at every index |
| `Supply.SetOfSeqSize` | src/core/se/jbee/inject/bootstrap/Supply.java:209-212 | the set of a sequence is no larger than the sequence, and equally large exactly when it has no duplicates |
| `Supply.SetBridgeDropsDuplicates` | src/core/se/jbee/inject/bootstrap/Supply.java:209-212 | the set bridge holds exactly the array's elements, and it loses members exactly when the array has duplicates |
| `Supply.SupplyProvider` | src/core/se/jbee/inject/bootstrap/Supply.java:366-373 | the provider bridge yields a lazy provider for the first type argument, uninjected and ignoring expiry, under the request's name when that is not the default name and under `onTypeParameter`'s own name otherwise; without a type argument it fails |
| `Supply.ProviderBridgeRetypes` | src/core/se/jbee/inject/bootstrap/Supply.java:366-373 | the provided dependency is the request retyped to its first type argument, uninjected and ignoring expiry; only a default name is replaced, by `onTypeParameter`'s name |
| `Supply.SupplyInState` | src/core/se/jbee/inject/bootstrap/Supply.java:166-176 | a state-named lookup is returned unless it is a missing resource; then a non-null state gives the lookup under the name of the `null` state, and a null state gives the failure back |
| `Supply.SupplyStateDependent` | src/core/se/jbee/inject/bootstrap/Supply.java:160-164 | a failure to resolve the state propagates; otherwise the name switch runs on the resolved state |
| `Supply.StateDependentAtMostOneRetry` | src/core/se/jbee/inject/bootstrap/Supply.java:166-176 | the outcome is always the lookup under the state's name or under the `null` state's name, so at most one retry happens |
| `Supply.SupplyEach` | src/core/se/jbee/inject/bootstrap/Supply.java:102-111 | reference fill: succeeds exactly when every element does, with the i-th value at index i; otherwise fails with the first failing element's error |
| `Supply.FillEach` | src/core/se/jbee/inject/bootstrap/Supply.java:106-110 | the imperative index-by-index fill computes the reference fill |
| `Supply.SupplyEachFirstFailure` | src/core/se/jbee/inject/bootstrap/Supply.java:107-109 | a failure at index k after k successes is the error of the whole fill |
| `Supply.SupplyElements` | src/core/se/jbee/inject/bootstrap/Supply.java:279-288 | the elements supplier yields an array with one entry per element, the i-th supplied by element i for the request retyped to the element type; otherwise it fails with the error of the first failing element, all earlier ones having succeeded |
| `Supply.ResolveParameters` | src/core/se/jbee/inject/bootstrap/Supply.java:102-115 | no parameters give no arguments; otherwise argument i is parameter i supplied for its own type under any name, and otherwise it fails with the error of the first failing parameter, all earlier ones having succeeded |
| `Supply.Describe` | src/core/se/jbee/inject/bootstrap/Supply.java:513-515 | `<b>`: the behaviour between angle brackets |
| `Supply.DescribeVariant` | src/core/se/jbee/inject/bootstrap/Supply.java:517-519 | `<b:v>`: behaviour, colon, variant, between angle brackets |
| `Supply.DescribeVariants` | src/core/se/jbee/inject/bootstrap/Supply.java:521-523 | no variants describe as `<b:[]>`; for a behaviour without `:` the description reads back as the behaviour and the `Arrays.toString` rendering of the variants |
| `Supply.DescribeVariantsRoundTrip` | src/core/se/jbee/inject/bootstrap/Supply.java:521-523 | a behaviour without `:` and variants without `,` are read back, the variants element by element |
| `Supply.DescribeRoundTrip` | src/core/se/jbee/inject/bootstrap/Supply.java:513-519 | a behaviour without `:` and any variant are read back from both description forms |
| `Injectorizer.Compare` | src/de/jbee/inject/Injectorizer.java:22-32 | the sort comparator never ties bindings of different raw types, and within one raw type it is the precision comparison |
| `Injectorizer.CompareDistinctRaw` | src/de/jbee/inject/Injectorizer.java:28-30 | bindings of different raw types never compare equal, and swapping them negates the result |
| `Injectorizer.CompareIsPreorder` | src/de/jbee/inject/Injectorizer.java:20-33 | the sort comparator is total and transitive whenever the precision comparison is |
| `Injectorizer.Insert` | src/de/jbee/inject/Injectorizer.java:20-33 | inserting into a sorted sequence adds exactly one element and keeps it sorted |
| `Injectorizer.InsertInFront` | src/de/jbee/inject/Injectorizer.java:20-33 | an element not above the head can go in front of a sorted sequence |
| `Injectorizer.InsertBehind` | src/de/jbee/inject/Injectorizer.java:20-33 | an element above the head goes behind it without breaking the order |
| `Injectorizer.Sort` | src/de/jbee/inject/Injectorizer.java:20-33 | the sort is a permutation of the bindings, sorted by the comparator |
| `Injectorizer.SortedByNameThenPrecision` | src/de/jbee/inject/Injectorizer.java:28-31 | after sorting, different raw types are in canonical-name order and one raw type's bindings are in precision order |
| `Injectorizer.SortedIsContiguous` | src/de/jbee/inject/Injectorizer.java:20-36 | after sorting, the bindings of each raw type are contiguous |
| `Injectorizer.RunIsComplete` | src/de/jbee/inject/Injectorizer.java:37-53 | in a contiguous sequence, a maximal run holds every binding of its raw type and nothing else |
| `Injectorizer.MakeInjectronOfBinding` | src/de/jbee/inject/Injectorizer.java:64-68 | the injectron of a sorted position keeps the binding's resource, source and repository, and its injectable handle is the one of the binding's supplier; its injection is of that resource, for a dependency on the resource's own instance, with the position as ordinal and the number of bindings as total |
| `Injectorizer.CreateTypeInjectrons` | src/de/jbee/inject/Injectorizer.java:57-71 | the run `[first, last]` gives `last - first + 1` injectrons in sorted order; injectron i comes from position `first + i` and carries that ordinal and the total |
| `Injectorizer.RawTypesExtend` | src/de/jbee/inject/Injectorizer.java:48-50 | closing a run adds exactly its raw type to the keys |
| `Injectorizer.ClosedRun` | src/de/jbee/inject/Injectorizer.java:40-51 | a stretch of one raw type bounded by changes of raw type, or by the ends, is a maximal run |
| `Injectorizer.AddRun` | src/de/jbee/inject/Injectorizer.java:42-49 | storing a stretch of one raw type bounded by changes of raw type, or by the ends, under that raw type keeps every key tied to a maximal run of its raw type |
| `Injectorizer.CloseRun` | src/de/jbee/inject/Injectorizer.java:42-49 | one `res.put` of a run's injectrons adds exactly that run's raw type as a key and keeps the index consistent |
| `Injectorizer.ClosedRuns` | src/de/jbee/inject/Injectorizer.java:34-53 | the iterations before the last position close every run that ends before the open one, which starts at a change of raw type and holds one raw type |
| `Injectorizer.GroupRuns` | src/de/jbee/inject/Injectorizer.java:34-54 | the grouping loop, last position included, gives no key for no bindings; every raw type becomes a key, and each key holds the injectrons of a maximal run of that raw type |
| `Injectorizer.RawTypesOfPermutation` | src/de/jbee/inject/Injectorizer.java:20 | sorting does not change the set of raw types |
| `Injectorizer.RunIndexesExactly` | src/de/jbee/inject/Injectorizer.java:34-53 | after sorting, a key's run holds the injectrons of exactly the bindings of that raw type |
| `Injectorizer.Injectrons` | src/de/jbee/inject/Injectorizer.java:13-55 | empty input gives the empty map; the keys are exactly the raw types bound; each key's array holds the injectrons of exactly that raw type's bindings, in sorted order |
| `Injectorizer.InstanceForDelegates` | src/de/jbee/inject/Injectorizer.java:102-106 | an indexed binding asks its own repository with its own injectable (the handle of its supplier), for an injection carrying its ordinal and the total |
| `ServiceModule.FirstMatch` | src/de/jbee/inject/service/ServiceModule.java:177-186 | finds the first method with the requested return type and a parameter of the requested type, or reports there is none |
| `ServiceModule.FirstMatchAppend` | src/de/jbee/inject/service/ServiceModule.java:176-187 | over two method lists in a row, the first list's match wins |
| `ServiceModule.ServiceClassMethods` | src/de/jbee/inject/service/ServiceModule.java:192-205 | a cached class's list is returned with the caches unchanged; otherwise the strategy is consulted once and its list stored |
| `ServiceModule.ServiceClassMethodsMemoised` | src/de/jbee/inject/service/ServiceModule.java:192-205 | a second call for the same class returns the identical list without consulting the strategy |
| `ServiceModule.SearchFrom` | src/de/jbee/inject/service/ServiceModule.java:175-190 | the search leaves the lookup cache alone and only adds classes to the methods cache |
| `ServiceModule.SearchFromIsLookup` | src/de/jbee/inject/service/ServiceModule.java:175-190 | with a valid methods cache, the search returns the first match in class order, then method order, and keeps the cache valid |
| `ServiceModule.Signature` | src/de/jbee/inject/service/ServiceModule.java:160 | the key is the rendered parameter type, then `->`, then the rendered return type |
| `ServiceModule.SignatureKeysSeparate` | src/de/jbee/inject/service/ServiceModule.java:160 | when no rendered parameter type contains `-`, two keys are equal exactly when both renderings are |
| `ServiceModule.ShowSeparatesKeys` | src/de/jbee/inject/service/ServiceModule.java:160-170 | an injective type rendering that never contains `-` makes the keys collision-free, the condition under which the cached lookup is the reference lookup |
| `ServiceModule.ServiceMethod` | src/de/jbee/inject/service/ServiceModule.java:159-173 | the key is the parameter type, `->`, and the return type; a non-null hit is returned with no search; otherwise the search result is stored under the key |
| `ServiceModule.EmptyCachesValid` | src/de/jbee/inject/service/ServiceModule.java:126-132 | fresh caches agree with the reference lookup |
| `ServiceModule.ServiceMethodIsLookup` | src/de/jbee/inject/service/ServiceModule.java:159-190 | with valid caches and collision-free keys, the cached lookup returns the reference first match and keeps the caches valid |
| `ServiceModule.FailedLookupSearchedAgain` | src/de/jbee/inject/service/ServiceModule.java:161-170 | a failed lookup is stored as `null`, which reads as a miss, so every further call searches again |
| `ServiceModule.FoundLookupCached` | src/de/jbee/inject/service/ServiceModule.java:161-164 | after a successful lookup, the next call for the signature is a hit that changes nothing |
| `ServiceModule.InjectronRequest` | src/de/jbee/inject/service/ServiceModule.java:275 | the request is for the engine's `de.jbee.inject.Injectron`, parametised by exactly the parameter type, under the `unnamed` name of `dependency(type)` |
| `ServiceModule.ArgumentInjectrons` | src/de/jbee/inject/service/ServiceModule.java:269-278 | a position has no injectron exactly when its raw type is the service's parameter type; elsewhere it holds the resolved `Injectron<T>`; a failure is the error of the first position whose injectron does not resolve |
| `ServiceModule.ArgumentTemplate` | src/de/jbee/inject/service/ServiceModule.java:248-257 | only positions with a never-expiring injectron are pre-resolved; all others stay null; a failure is the error of the first never-expiring injectron whose value does not resolve |
| `ServiceModule.ActualArguments` | src/de/jbee/inject/service/ServiceModule.java:280-291 | the arguments have one entry per parameter type: the call argument at parameter-type positions, else the non-null template value, else a freshly resolved value; a failure is the error of the first fresh resolution that fails |
| `ServiceModule.NewLazyServiceMethod` | src/de/jbee/inject/service/ServiceModule.java:234-246 | construction succeeds exactly when every injectron and every never-expiring value resolves; the result holds the method, its classes and parameter types, and exactly the injectrons and template the two passes compute; a failure carries the error of the first failing injectron, or, when all injectrons resolve, of the first failing never-expiring value |
| `ServiceModule.BuiltForResolves` | src/de/jbee/inject/service/ServiceModule.java:234-246 | a constructed lazy service method satisfies the argument invariants, and every resolution behind it succeeded |
| `ServiceModule.BuiltForUnique` | src/de/jbee/inject/service/ServiceModule.java:234-278 | the method, the classes and the injector determine the constructed lazy service method completely |
| `ServiceModule.Provide` | src/de/jbee/inject/service/ServiceModule.java:147-157 | providing runs the cached lookup; a missing method is a null-pointer failure; a found method is built for the raw parameter and return classes exactly when all its resolutions succeed, and otherwise fails with the error of the first failing resolution |

## Left out

- Injectorizer.Sort: stability (equal bindings keep their input order) is not stated, only permutation and sortedness.
- ServiceModule.ServiceMethodIsLookup: requires that signature keys never collide, because `Type.toString` is not part of this model and the cache is only correct under that condition. `ShowSeparatesKeys` derives it from a rendering that is injective and never contains `-`.
- Injectorizer.MakeInjectronOfBinding: the injectable handle stands for `Suppliers.asInjectable(supplier, resolver)` under the index's single resolver; `asInjectable` is not part of this model, so the handle is the supplier's.
- Supply.Adapt: `Arrays.asList` returns a view that writes through to the array; the model returns an independent list. The array is freshly supplied and not shared, so no caller can observe the difference.
- `Injectorizer.MakeInjectron` has no contract of its own; what it builds is stated by `MakeInjectronOfBinding`.
- `Injectorizer.InstanceFor` has no contract of its own; its delegation is stated by `InstanceForDelegates` for injectrons built by the index.
- `InjectronImpl.toString`: depends on `Injection.toString` and `Resource.getTarget().toString`, which are not part of this model.
- A raw type whose canonical name is `null` (anonymous and local classes) makes the source's comparator throw. Two distinct classes with one canonical name are treated as one raw type. Both are excluded by identifying a class with its canonical name.
- A comparator that breaks the `Comparator` contract can make `Arrays.sort` throw or reorder; the model requires of `comparePrecision`, on resources of one raw type, a total preorder whose sign flips when its arguments are swapped.
- The `synchronized` double-checked locking of the two caches: concurrency is not modelled. A sequential run performs the second, locked read exactly like the first.
- `DependencySupplier`, `InstanceSupplier`, `ParametrizedInstanceSupplier`, `BridgeSupplier`, `FactorySupplier`, `LazyProvider` and `LoggerFactory`: pure delegation to the injector or to `java.util.logging`.
- `ConstructorSupplier`, `MethodSupplier`, `BuildinServiceStrategy`, `TypeReflector.newInstance`, `LazyServiceMethod.invoke`, and the exception wrapping in `invoke`: reflection.
- `ServiceProviderSupplier` and `ServiceSupplier`: they only resolve the provider and the type arguments before calling `provide`.
- The `toString` of each supplier, except the placeholder's `describe("required")`, which is `Describe`. Rendering an arbitrary object is out of scope.
- The identity of the shared empty argument array `NO_ARGS`; the model only says it is empty.
- `ServiceModule.declare`, `bootstrap` and the binder DSL: bootstrap glue.
- Scope repositories, precision and the injector itself: abstract parameters here.
- `HashSet` iteration order: a set bridge's result is a mathematical set.
- Strings are sequences of `char`. Java compares UTF-16 code units, so the order of characters outside the Basic Multilingual Plane may differ from the model's order.

=== FILE: inject.dfy ===
/** The vocabulary of the resolution engine that the modelled combinators
    work against: classes, type descriptors, names, instances, dependencies,
    the values an injector hands out and the errors it raises. The engine's
    own classes (`Type`, `Name`, `Instance`, `Dependency`, `Injector`) are not
    part of this model; only the operations the core calls on them appear,
    each with the plain meaning its name has. */
module Inject {
  import opened Wrappers

  /** A loaded class, identified by its canonical name. */
  datatype Class = Class(canonicalName: string)

  const ArraySuffix: string := "[]"

  /** Array classes are the classes whose canonical name ends in `[]`. */
  predicate IsArrayClass(c: Class)
  {
    var n := c.canonicalName;
    |n| >= 2 && n[|n| - 2..] == ArraySuffix
  }

  /** The class of arrays of `c` (`String` -> `String[]`). */
  function ArrayClass(c: Class): (r: Class)
    ensures IsArrayClass(r)
    ensures ComponentClass(r) == c
  {
    var n := c.canonicalName + ArraySuffix;
    assert n[..|n| - 2] == c.canonicalName;
    Class(n)
  }

  /** The component class of an array class (`String[]` -> `String`). */
  function ComponentClass(c: Class): Class
    requires IsArrayClass(c)
  {
    Class(c.canonicalName[..|c.canonicalName| - 2])
  }

  /** A generic type descriptor: raw class, actual type arguments and whether
      it stands for "any subtype of" (an upper bound). */
  datatype Type = Type(rawType: Class, parameters: seq<Type>, upperBound: bool)

  /** `Type.raw(c)`: the exact, unparameterised use of a class. */
  function Raw(c: Class): (r: Type)
    ensures r.rawType == c && r.parameters == [] && !r.upperBound
  {
    Type(c, [], false)
  }

  /** `t.parametized(args)`: the same raw type with the given arguments. */
  function Parametized(t: Type, args: seq<Type>): (r: Type)
    ensures r.rawType == t.rawType && r.parameters == args && r.upperBound == t.upperBound
  {
    t.(parameters := args)
  }

  /** `t.parameter(i)`; an absent argument fails like the array access behind it. */
  function TypeParameter(t: Type, i: nat): (r: Result<Type, Error>)
    ensures r.Success? <==> i < |t.parameters|
    ensures r.Success? ==> r.value == t.parameters[i]
    ensures r.Failure? ==> r.error == IndexOutOfBounds(i)
  {
    if i < |t.parameters| then Success(t.parameters[i]) else Failure(IndexOutOfBounds(i))
  }

  /** `t.getArrayType()`: the array type whose elements are `t`. */
  function ArrayType(t: Type): (r: Type)
    ensures IsArrayClass(r.rawType)
    ensures ElementType(r) == t
  {
    t.(rawType := ArrayClass(t.rawType))
  }

  /** `t.elementType()` of an array type. */
  function ElementType(t: Type): Type
    requires IsArrayClass(t.rawType)
  {
    t.(rawType := ComponentClass(t.rawType))
  }

  /** A qualifier: a specific name, the default (unnamed) one, or the wildcard. */
  datatype Name = Default | Any | Named(id: string)

  /** What is requested or bound: a name together with a type. */
  datatype Instance = Instance(name: Name, typ: Type)

  /** `Instance.anyOf(t)`: the wildcard-named instance of `t`. */
  function AnyOf(t: Type): Instance
  {
    Instance(Any, t)
  }

  /** A request being resolved: the instance wanted, the chain of instances it
      is injected into, and whether scope expiry is to be ignored. */
  datatype Dependency = Dependency(instance: Instance, hierarchy: seq<Instance>, expiryIgnored: bool) {

    function Instanced(i: Instance): Dependency
    {
      this.(instance := i)
    }

    function Typed(t: Type): Dependency
    {
      this.(instance := instance.(typ := t))
    }

    function WithName(n: Name): Dependency
    {
      this.(instance := instance.(name := n))
    }

    function InjectingInto(target: Instance): Dependency
    {
      this.(hierarchy := hierarchy + [target])
    }

    function Uninject(): Dependency
    {
      this.(hierarchy := [])
    }

    function IgnoredExpiry(): Dependency
    {
      this.(expiryIgnored := true)
    }

    /** `onTypeParameter()`: a request for the first type argument of the
        requested type, in the same injection hierarchy. The name such a
        fresh request carries is decided in `Dependency`, which is not part of
        this model, so it is the parameter `unnamed`. */
    function OnTypeParameter(unnamed: Name): (r: Result<Dependency, Error>)
      ensures r.Success? <==> |instance.typ.parameters| > 0
      ensures r.Success? ==> r.value == Dependency(Instance(unnamed, instance.typ.parameters[0]), hierarchy, expiryIgnored)
    {
      var p :- TypeParameter(instance.typ, 0);
      Success(Dependency(Instance(unnamed, p), hierarchy, expiryIgnored))
    }
  }

  /** `Dependency.dependency(t)`: a fresh request for `t`, under the name
      `unnamed` that `Dependency` gives fresh requests. */
  function DependencyOn(t: Type, unnamed: Name): Dependency
  {
    Dependency(Instance(unnamed, t), [], false)
  }

  /** `Dependency.dependency(i)`: a fresh request for the instance `i`. */
  function DependencyOnInstance(i: Instance): Dependency
  {
    Dependency(i, [], false)
  }

  /** The values suppliers hand out. `Null` is Java's `null`; `Arr`, `ListOf`
      and `SetOf` are arrays, lists and hash sets of values; `LazyProvider` is
      a provider that re-resolves its dependency whenever it is asked. */
  datatype Value =
    | Null
    | Obj(id: nat)
    | Arr(elements: seq<Value>)
    | ListOf(items: seq<Value>)
    | SetOf(members: set<Value>)
    | LazyProvider(dependency: Dependency)

  /** The exceptions the core raises or lets through. */
  datatype Error =
    | NoSuchResource(request: Dependency)
    | Unsupported(message: string)
    | IndexOutOfBounds(index: int)
    | NullPointer
    | ClassCast

  /** The injector, as seen by a supplier: a partial function from requests
      to values, partiality expressed as a `Failure`. */
  type Injector = Dependency -> Result<Value, Error>
}

=== FILE: injectorizer.dfy ===
/** `Injectorizer.injectrons`: the resolution index. All bindings are
    sorted by the canonical name of their raw type and, within one raw type,
    by precision; the sorted sequence is then cut into one run per raw type
    and every binding becomes an injectron that knows its position in the
    sorted sequence and the total number of bindings. */
module Injectorizer {
  import opened Wrappers
  import opened Inject
  import JavaString

  /** A bound resource: the instance it answers for, and its target (opaque here). */
  datatype Resource = Resource(instance: Instance, target: nat)

  /** A binding ready to be indexed: resource, source, repository of its
      scope and supplier; the last three are opaque handles. The supplier
      handle stands for the injectable that `Suppliers.asInjectable` makes of
      the supplier under the index's one dependency resolver. */
  datatype Suppliable = Suppliable(resource: Resource, source: nat, repository: nat, supplier: nat)

  /** A resource being injected for a dependency, with the binding's
      ordinal in the sorted index and the number of all bindings. */
  datatype Injection = Injection(resource: Resource, dependency: Dependency, ordinal: nat, total: nat) {

    /** `injection.on(dependency)`: the same injection for another dependency. */
    function On(d: Dependency): Injection
    {
      this.(dependency := d)
    }
  }

  /** The indexed form of a binding. */
  datatype Injectron = Injectron(resource: Resource, source: nat, injection: Injection, repository: nat, injectable: nat)

  /** `Precision.comparePrecision`: a three-way comparison of two resources. */
  type Precision = (Resource, Resource) -> int

  /** The repository's `serve(injection, injectable)`, for a repository handle. */
  type Serve = (nat, Injection, nat) -> Result<Value, Error>

  function RawTypeOf(b: Suppliable): Class
  {
    b.resource.instance.typ.rawType
  }

  /** `comparePrecision` is only asked about resources of one raw type, and
      `Arrays.sort` needs it to keep the `Comparator` contract there: a
      total preorder whose sign flips when the arguments are swapped. */
  ghost predicate IsPreorder(prec: Precision)
  {
    && (forall a: Resource, b: Resource :: a.instance.typ.rawType == b.instance.typ.rawType ==> (prec(a, b) < 0 <==> prec(b, a) > 0))
    && (forall a: Resource, b: Resource :: a.instance.typ.rawType == b.instance.typ.rawType ==> prec(a, b) <= 0 || prec(b, a) <= 0)
    && (forall a: Resource, b: Resource, c: Resource ::
          a.instance.typ.rawType == b.instance.typ.rawType == c.instance.typ.rawType && prec(a, b) <= 0 && prec(b, c) <= 0
          ==> prec(a, c) <= 0)
  }

  /** The comparator handed to `Arrays.sort`. */
  function Compare(prec: Precision, one: Suppliable, other: Suppliable): (r: int)
    ensures r == 0 ==> RawTypeOf(one) == RawTypeOf(other)
    ensures RawTypeOf(one) == RawTypeOf(other) ==> r == prec(one.resource, other.resource)
  {
    var rawOne, rawOther := RawTypeOf(one), RawTypeOf(other);
    if rawOne != rawOther then
      JavaString.CompareToZeroIffEqual(rawOne.canonicalName, rawOther.canonicalName);
      JavaString.CompareTo(rawOne.canonicalName, rawOther.canonicalName)
    else prec(one.resource, other.resource)
  }

  /** Different raw types never compare as equal. */
  lemma CompareDistinctRaw(prec: Precision, a: Suppliable, b: Suppliable)
    requires RawTypeOf(a) != RawTypeOf(b)
    ensures Compare(prec, a, b) != 0
    ensures Compare(prec, b, a) == -Compare(prec, a, b)
  {
    JavaString.CompareToZeroIffEqual(RawTypeOf(a).canonicalName, RawTypeOf(b).canonicalName);
    JavaString.CompareToAntisymmetric(RawTypeOf(a).canonicalName, RawTypeOf(b).canonicalName);
  }

  /** The comparator is a total preorder, so sorting by it is well defined. */
  lemma CompareIsPreorder(prec: Precision, a: Suppliable, b: Suppliable, c: Suppliable)
    requires IsPreorder(prec)
    ensures Compare(prec, a, b) <= 0 || Compare(prec, b, a) <= 0
    ensures Compare(prec, a, b) <= 0 && Compare(prec, b, c) <= 0 ==> Compare(prec, a, c) <= 0
  {
    var ra, rb, rc := RawTypeOf(a), RawTypeOf(b), RawTypeOf(c);
    if ra != rb {
      CompareDistinctRaw(prec, a, b);
    }
    if Compare(prec, a, b) <= 0 && Compare(prec, b, c) <= 0 {
      if ra == rb && rb == rc {
      } else if ra == rb {
        // Compare(a, c) is the name comparison of Compare(b, c)
      } else if rb == rc {
      } else if ra == rc {
        assert false;
      } else {
        CompareDistinctRaw(prec, b, c);
        CompareDistinctRaw(prec, a, c);
        JavaString.CompareToTotalOrder(ra.canonicalName, rb.canonicalName, rc.canonicalName);
      }
    }
  }

  ghost predicate Sorted(prec: Precision, s: seq<Suppliable>)
  {
    forall i, j :: 0 <= i < j < |s| ==> Compare(prec, s[i], s[j]) <= 0
  }

  /** Inserts `x` before the first element it does not compare above. */
  function Insert(prec: Precision, x: Suppliable, s: seq<Suppliable>): (r: seq<Suppliable>)
    requires IsPreorder(prec) && Sorted(prec, s)
    ensures multiset(r) == multiset(s) + multiset{x}
    ensures Sorted(prec, r)
  {
    if |s| == 0 then [x]
    else if Compare(prec, x, s[0]) <= 0 then
      InsertInFront(prec, x, s);
      [x] + s
    else
      var t := Insert(prec, x, s[1..]);
      assert s == [s[0]] + s[1..];
      InsertBehind(prec, x, s, t);
      [s[0]] + t
  }

  lemma InsertInFront(prec: Precision, x: Suppliable, s: seq<Suppliable>)
    requires IsPreorder(prec) && Sorted(prec, s)
    requires |s| > 0 && Compare(prec, x, s[0]) <= 0
    ensures Sorted(prec, [x] + s)
  {
    var r := [x] + s;
    forall i, j | 0 <= i < j < |r| ensures Compare(prec, r[i], r[j]) <= 0 {
      if i == 0 && j > 1 {
        CompareIsPreorder(prec, x, s[0], s[j - 1]);
      }
    }
  }

  lemma InsertBehind(prec: Precision, x: Suppliable, s: seq<Suppliable>, t: seq<Suppliable>)
    requires IsPreorder(prec) && Sorted(prec, s) && Sorted(prec, t)
    requires |s| > 0 && Compare(prec, x, s[0]) > 0
    requires multiset(t) == multiset(s[1..]) + multiset{x}
    ensures Sorted(prec, [s[0]] + t)
  {
    CompareIsPreorder(prec, x, s[0], x);
    var r := [s[0]] + t;
    forall i, j | 0 <= i < j < |r| ensures Compare(prec, r[i], r[j]) <= 0 {
      if i == 0 {
        var y := t[j - 1];
        assert y in multiset(t);
        if y != x {
          assert y in multiset(s[1..]);
          var k :| 0 <= k < |s[1..]| && s[1..][k] == y;
          assert s[k + 1] == y;
        }
      }
    }
  }

  /** `Arrays.sort(suppliables, comparator)`, as a stable insertion sort:
      a permutation of the input in which different raw types are ordered by
      canonical name and one raw type's bindings by precision. */
  function Sort(prec: Precision, s: seq<Suppliable>): (r: seq<Suppliable>)
    requires IsPreorder(prec)
    ensures multiset(r) == multiset(s) && |r| == |s|
    ensures Sorted(prec, r)
  {
    if |s| == 0 then []
    else
      assert s == [s[0]] + s[1..];
      Insert(prec, s[0], Sort(prec, s[1..]))
  }

  /** What sortedness means for the bindings: pairs of different raw types
      are in canonical-name order, pairs of one raw type in precision order. */
  lemma SortedByNameThenPrecision(prec: Precision, s: seq<Suppliable>, i: int, j: int)
    requires Sorted(prec, s) && 0 <= i < j < |s|
    ensures RawTypeOf(s[i]) != RawTypeOf(s[j]) ==>
      JavaString.CompareTo(RawTypeOf(s[i]).canonicalName, RawTypeOf(s[j]).canonicalName) < 0
    ensures RawTypeOf(s[i]) == RawTypeOf(s[j]) ==> prec(s[i].resource, s[j].resource) <= 0
  {
    if RawTypeOf(s[i]) != RawTypeOf(s[j]) {
      CompareDistinctRaw(prec, s[i], s[j]);
    }
  }

  /** The bindings of each raw type occupy one contiguous stretch. */
  ghost predicate Contiguous(s: seq<Suppliable>)
  {
    forall i, j, k :: 0 <= i <= j <= k < |s| && RawTypeOf(s[i]) == RawTypeOf(s[k]) ==> RawTypeOf(s[j]) == RawTypeOf(s[i])
  }

  lemma SortedIsContiguous(prec: Precision, s: seq<Suppliable>)
    requires Sorted(prec, s)
    ensures Contiguous(s)
  {
    forall i, j, k | 0 <= i <= j <= k < |s| && RawTypeOf(s[i]) == RawTypeOf(s[k])
      ensures RawTypeOf(s[j]) == RawTypeOf(s[i])
    {
      if RawTypeOf(s[j]) != RawTypeOf(s[i]) {
        SortedByNameThenPrecision(prec, s, i, j);
        SortedByNameThenPrecision(prec, s, j, k);
        var ni, nj := RawTypeOf(s[i]).canonicalName, RawTypeOf(s[j]).canonicalName;
        JavaString.CompareToAntisymmetric(ni, nj);
        assert false;
      }
    }
  }

  /** `[first, last]` is a maximal stretch of bindings of one raw type. */
  ghost predicate IsRun(s: seq<Suppliable>, first: int, last: int)
  {
    && 0 <= first <= last < |s|
    && (forall i :: first <= i <= last ==> RawTypeOf(s[i]) == RawTypeOf(s[first]))
    && (first == 0 || RawTypeOf(s[first - 1]) != RawTypeOf(s[first]))
    && (last == |s| - 1 || RawTypeOf(s[last + 1]) != RawTypeOf(s[first]))
  }

  /** In a contiguous sequence a run holds every binding of its raw type. */
  lemma RunIsComplete(s: seq<Suppliable>, first: int, last: int)
    requires Contiguous(s) && IsRun(s, first, last)
    ensures forall i :: 0 <= i < |s| ==> (RawTypeOf(s[i]) == RawTypeOf(s[first]) <==> first <= i <= last)
  {
  }

  /** The injectron for sorted position `ordinal`. */
  function MakeInjectron(s: seq<Suppliable>, ordinal: nat): Injectron
    requires ordinal < |s|
  {
    var b := s[ordinal];
    Injectron(b.resource, b.source, Injection(b.resource, DependencyOnInstance(b.resource.instance), ordinal, |s|),
      b.repository, b.supplier)
  }

  /** The injectron keeps the binding's resource, source, repository and
      supplier, and its injection is of that resource for a dependency on
      the resource's own instance, with the sorted position and the total. */
  lemma MakeInjectronOfBinding(s: seq<Suppliable>, ordinal: nat)
    requires ordinal < |s|
    ensures var r := MakeInjectron(s, ordinal);
      && r.resource == s[ordinal].resource && r.source == s[ordinal].source
      && r.repository == s[ordinal].repository && r.injectable == s[ordinal].supplier
      && r.injection.resource == r.resource && r.injection.dependency == DependencyOnInstance(r.resource.instance)
      && r.injection.ordinal == ordinal && r.injection.total == |s|
  {
  }

  /** `r` holds the injectrons of sorted positions `first` to `last`, in order. */
  ghost predicate BuiltFrom(r: seq<Injectron>, s: seq<Suppliable>, first: int, last: int)
  {
    && 0 <= first <= last < |s|
    && |r| == last - first + 1
    && forall i :: 0 <= i < |r| ==> r[i] == MakeInjectron(s, first + i)
  }

  /** `createTypeInjectrons(first, last, ...)`: one injectron per position of
      the run, in sorted order, the one from position `first + i` carrying
      ordinal `first + i` and the total number of bindings. */
  method CreateTypeInjectrons(first: nat, last: nat, s: seq<Suppliable>) returns (r: seq<Injectron>)
    requires first <= last < |s|
    ensures BuiltFrom(r, s, first, last)
    ensures forall i :: 0 <= i < |r| ==>
      && r[i].injection.ordinal == first + i
      && r[i].injection.total == |s|
      && r[i].resource == s[first + i].resource
      && r[i].repository == s[first + i].repository
      && r[i].injectable == s[first + i].supplier
  {
    var length := last - first + 1;
    r := [];
    for i := 0 to length
      invariant |r| == i
      invariant forall j :: 0 <= j < i ==> r[j] == MakeInjectron(s, first + j)
    {
      r := r + [MakeInjectron(s, i + first)];
    }
  }

  /** The raw types of the bindings of `s`. */
  ghost function RawTypes(s: seq<Suppliable>): set<Class>
  {
    set i | 0 <= i < |s| :: RawTypeOf(s[i])
  }

  lemma {:induction false} RawTypesExtend(s: seq<Suppliable>, a: int, b: int, k: Class)
    requires 0 <= a < b <= |s|
    requires forall j :: a <= j < b ==> RawTypeOf(s[j]) == k
    ensures RawTypes(s[..b]) == RawTypes(s[..a]) + {k}
  {
    assert RawTypeOf(s[..b][a]) == k;
    forall c | c in RawTypes(s[..b]) ensures c in RawTypes(s[..a]) + {k} {
      var j :| 0 <= j < b && RawTypeOf(s[..b][j]) == c;
      if j < a {
        assert RawTypeOf(s[..a][j]) == c;
      }
    }
    forall c | c in RawTypes(s[..a]) ensures c in RawTypes(s[..b]) {
      var j :| 0 <= j < a && RawTypeOf(s[..a][j]) == c;
      assert RawTypeOf(s[..b][j]) == c;
    }
  }

  /** Each key of `res` holds the injectrons of the maximal run `runs[k]` of raw type `k`. */
  ghost predicate RunsIndexed(s: seq<Suppliable>, res: map<Class, seq<Injectron>>, runs: map<Class, (int, int)>)
  {
    && runs.Keys == res.Keys
    && forall k :: k in runs ==>
      IsRun(s, runs[k].0, runs[k].1) && RawTypeOf(s[runs[k].0]) == k && BuiltFrom(res[k], s, runs[k].0, runs[k].1)
  }

  /** A stretch of one raw type that starts after a change of raw type and
      ends before one (or at an end of `s`) is a maximal run. */
  lemma {:induction false} ClosedRun(s: seq<Suppliable>, first: int, next: int, k: Class)
    requires 0 <= first < next <= |s|
    requires forall j :: first <= j < next ==> RawTypeOf(s[j]) == k
    requires first == 0 || RawTypeOf(s[first - 1]) != RawTypeOf(s[first])
    requires next == |s| || RawTypeOf(s[next]) != k
    ensures IsRun(s, first, next - 1) && RawTypeOf(s[first]) == k
  {
  }

  /** Storing the run that ends before `next` keeps the index consistent. */
  lemma {:induction false} AddRun(s: seq<Suppliable>, res: map<Class, seq<Injectron>>, runs: map<Class, (int, int)>,
               k: Class, first: nat, next: nat, run: seq<Injectron>)
    requires first < next <= |s|
    requires forall j :: first <= j < next ==> RawTypeOf(s[j]) == k
    requires first == 0 || RawTypeOf(s[first - 1]) != RawTypeOf(s[first])
    requires next == |s| || RawTypeOf(s[next]) != k
    requires RunsIndexed(s, res, runs) && BuiltFrom(run, s, first, next - 1)
    ensures RunsIndexed(s, res[k := run], runs[k := (first, next - 1)])
  {
  }

  /** Closing a run of raw type `k` that started at `first` and ends before
      `next` extends the keys from the raw types before `first` to those
      before `next`. */
  lemma {:induction false} KeysAfterClose(s: seq<Suppliable>, res: map<Class, seq<Injectron>>,
                                          first: nat, next: nat, k: Class, run: seq<Injectron>)
    requires first < next <= |s|
    requires forall j :: first <= j < next ==> RawTypeOf(s[j]) == k
    requires res.Keys == RawTypes(s[..first])
    ensures res[k := run].Keys == RawTypes(s[..next])
  {
    RawTypesExtend(s, first, next, k);
    assert res[k := run].Keys == res.Keys + {k};
  }

  /** `res.put(k, createTypeInjectrons(first, next - 1, ...))` when a run of
      raw type `k` ends before position `next`: the keys grow from the raw
      types before `first` to those before `next`, and the index stays
      consistent. */
  method CloseRun(s: seq<Suppliable>, res: map<Class, seq<Injectron>>, ghost runs: map<Class, (int, int)>,
                  first: nat, next: nat, k: Class)
    returns (res': map<Class, seq<Injectron>>, ghost runs': map<Class, (int, int)>)
    requires first < next <= |s|
    requires forall j :: first <= j < next ==> RawTypeOf(s[j]) == k
    requires first == 0 || RawTypeOf(s[first - 1]) != RawTypeOf(s[first])
    requires next == |s| || RawTypeOf(s[next]) != k
    requires res.Keys == RawTypes(s[..first])
    requires RunsIndexed(s, res, runs)
    ensures res'.Keys == RawTypes(s[..next])
    ensures RunsIndexed(s, res', runs')
  {
    var run := CreateTypeInjectrons(first, next - 1, s);
    AddRun(s, res, runs, k, first, next, run);
    KeysAfterClose(s, res, first, next, k, run);
    res' := res[k := run];
    runs' := runs[k := (first, next - 1)];
  }

  /** The grouping loop up to, but excluding, the last position: every change
      of raw type closes the run before it. On exit `[start, |s| - 2]` is the
      still open run, of raw type `lastRawType`, and `res` holds the runs
      closed before `start`. */
  method ClosedRuns(s: seq<Suppliable>) returns (res: map<Class, seq<Injectron>>, start: nat, lastRawType: Class, ghost runs: map<Class, (int, int)>)
    requires |s| > 0
    ensures start < |s| && (|s| > 1 ==> start < |s| - 1)
    ensures lastRawType == RawTypeOf(s[if |s| > 1 then |s| - 2 else 0])
    ensures forall j :: start <= j < |s| - 1 ==> RawTypeOf(s[j]) == lastRawType
    ensures start == 0 || RawTypeOf(s[start - 1]) != RawTypeOf(s[start])
    ensures res.Keys == RawTypes(s[..start])
    ensures RunsIndexed(s, res, runs)
  {
    var end := |s| - 1;
    res := map[];
    start := 0;
    lastRawType := RawTypeOf(s[0]);
    runs := map[];
    assert s[..0] == [];
    for i := 0 to end
      invariant start < |s| && (i > 0 ==> start < i) && (i == 0 ==> start == 0)
      invariant lastRawType == RawTypeOf(s[if i > 0 then i - 1 else 0])
      invariant forall j :: start <= j < i ==> RawTypeOf(s[j]) == lastRawType
      invariant start == 0 || RawTypeOf(s[start - 1]) != RawTypeOf(s[start])
      invariant res.Keys == RawTypes(s[..start])
      invariant RunsIndexed(s, res, runs)
    {
      var rawType := RawTypeOf(s[i]);
      if rawType != lastRawType {
        res, runs := CloseRun(s, res, runs, start, i, lastRawType);
        start := i;
      }
      lastRawType := rawType;
    }
  }

  /** The grouping loop over the sorted bindings. Its iteration for the last
      position, which closes the open run and, if the raw type changes
      there, also the single-element run of the last binding, follows the
      loop over the other positions. Every raw type becomes a key, and each
      key maps to the injectrons of a maximal run of that raw type. */
  method GroupRuns(s: seq<Suppliable>) returns (res: map<Class, seq<Injectron>>)
    ensures |s| == 0 ==> res == map[]
    ensures res.Keys == RawTypes(s)
    ensures forall k :: k in res ==>
      exists first, last :: IsRun(s, first, last) && RawTypeOf(s[first]) == k && BuiltFrom(res[k], s, first, last)
  {
    var total := |s|;
    res := map[];
    if total == 0 {
      return;
    }
    var end := total - 1;
    var start, lastRawType;
    ghost var runs;
    res, start, lastRawType, runs := ClosedRuns(s);
    var rawType := RawTypeOf(s[end]);
    if rawType != lastRawType {
      res, runs := CloseRun(s, res, runs, start, end, lastRawType);
      res, runs := CloseRun(s, res, runs, end, total, rawType);
    } else {
      res, runs := CloseRun(s, res, runs, start, total, rawType);
    }
    assert s[..total] == s;
    forall k | k in res
      ensures exists first, last :: IsRun(s, first, last) && RawTypeOf(s[first]) == k && BuiltFrom(res[k], s, first, last)
    {
      assert k in runs;
      var first, last := runs[k].0, runs[k].1;
      assert IsRun(s, first, last) && RawTypeOf(s[first]) == k && BuiltFrom(res[k], s, first, last);
    }
  }

  lemma RawTypesOfPermutation(s: seq<Suppliable>, t: seq<Suppliable>)
    requires multiset(s) == multiset(t)
    ensures RawTypes(s) == RawTypes(t)
  {
    forall c | c in RawTypes(s) ensures c in RawTypes(t) {
      var i :| 0 <= i < |s| && RawTypeOf(s[i]) == c;
      assert s[i] in multiset(t);
      var j :| 0 <= j < |t| && t[j] == s[i];
    }
    forall c | c in RawTypes(t) ensures c in RawTypes(s) {
      var j :| 0 <= j < |t| && RawTypeOf(t[j]) == c;
      assert t[j] in multiset(s);
      var i :| 0 <= i < |s| && s[i] == t[j];
    }
  }

  /** `r` is the injectrons of exactly the bindings of raw type `k` in `s`,
      in the order of `s`; the first of them carries the position where
      that raw type starts. */
  ghost predicate IndexesExactly(r: seq<Injectron>, s: seq<Suppliable>, k: Class)
  {
    && |r| > 0
    && var first := r[0].injection.ordinal;
      && BuiltFrom(r, s, first, first + |r| - 1)
      && forall i :: 0 <= i < |s| ==> (RawTypeOf(s[i]) == k <==> first <= i < first + |r|)
  }

  /** In a contiguous sequence the injectrons of a maximal run are those of
      exactly the bindings of its raw type. */
  lemma {:induction false} RunIndexesExactly(s: seq<Suppliable>, r: seq<Injectron>, k: Class, first: int, last: int)
    requires Contiguous(s) && IsRun(s, first, last) && RawTypeOf(s[first]) == k
    requires BuiltFrom(r, s, first, last)
    ensures IndexesExactly(r, s, k)
  {
    RunIsComplete(s, first, last);
    assert r[0] == MakeInjectron(s, first);
  }

  /** `injectrons(suppliables, resolver)`: sorts the bindings in place
      (returned as `sorted`) and indexes them. No input gives the empty map;
      otherwise the keys are exactly the raw types bound, and each key's
      array holds the injectrons of exactly that raw type's bindings, in
      sorted order, with their sorted positions as ordinals. */
  method Injectrons(suppliables: seq<Suppliable>, prec: Precision) returns (sorted: seq<Suppliable>, res: map<Class, seq<Injectron>>)
    requires IsPreorder(prec)
    ensures |suppliables| == 0 ==> res == map[]
    ensures forall k :: k in res ==> IndexesExactly(res[k], sorted, k)
    ensures res.Keys == RawTypes(suppliables)
    ensures sorted == Sort(prec, suppliables)
  {
    if |suppliables| == 0 {
      return suppliables, map[];
    }
    sorted := Sort(prec, suppliables);
    res := GroupRuns(sorted);
    RawTypesOfPermutation(suppliables, sorted);
    SortedIsContiguous(prec, sorted);
    forall k | k in res ensures IndexesExactly(res[k], sorted, k) {
      var first, last :| IsRun(sorted, first, last) && RawTypeOf(sorted[first]) == k && BuiltFrom(res[k], sorted, first, last);
      RunIndexesExactly(sorted, res[k], k, first, last);
    }
  }

  /** `instanceFor(dependency)`: asks the binding's repository to serve the
      injection retargeted at the dependency, passing the binding's injectable. */
  function InstanceFor(injectron: Injectron, dependency: Dependency, serve: Serve): Result<Value, Error>
  {
    serve(injectron.repository, injectron.injection.On(dependency.InjectingInto(injectron.resource.instance)), injectron.injectable)
  }

  /** An indexed binding never produces a value itself: it delegates to its
      own repository with its own injectable, tagging the request with its
      ordinal and the total. */
  lemma InstanceForDelegates(s: seq<Suppliable>, ordinal: nat, dependency: Dependency, serve: Serve)
    requires ordinal < |s|
    ensures InstanceFor(MakeInjectron(s, ordinal), dependency, serve) ==
      serve(s[ordinal].repository,
            Injection(s[ordinal].resource, dependency.InjectingInto(s[ordinal].resource.instance), ordinal, |s|),
            s[ordinal].supplier)
  {
  }
}

=== FILE: java_string.dfy ===
/** The two pieces of `java.lang` string behaviour the core relies on:
    `String.compareTo` (used to order raw types by canonical name) and the
    bracketed, comma-separated rendering of `Arrays.toString`. A Java string
    is a sequence of UTF-16 code units; here it is a `seq<char>`. */
module JavaString {
  import opened Wrappers

  /** `a.compareTo(b)`: the difference of the first differing code units,
      or the difference of the lengths when one string is a prefix of the other. */
  function CompareTo(a: string, b: string): int
  {
    if |a| == 0 || |b| == 0 then |a| - |b|
    else if a[0] != b[0] then a[0] as int - b[0] as int
    else CompareTo(a[1..], b[1..])
  }

  /** `compareTo` is zero exactly on equal strings. */
  lemma {:induction false} CompareToZeroIffEqual(a: string, b: string)
    ensures CompareTo(a, b) == 0 <==> a == b
  {
    if |a| == 0 || |b| == 0 {
    } else if a[0] != b[0] {
    } else {
      CompareToZeroIffEqual(a[1..], b[1..]);
      assert a == [a[0]] + a[1..];
      assert b == [b[0]] + b[1..];
    }
  }

  /** Swapping the arguments negates the result. */
  lemma {:induction false} CompareToAntisymmetric(a: string, b: string)
    ensures CompareTo(b, a) == -CompareTo(a, b)
  {
    if |a| == 0 || |b| == 0 {
    } else if a[0] != b[0] {
    } else {
      CompareToAntisymmetric(a[1..], b[1..]);
    }
  }

  /** The order `compareTo(a, b) < 0` is transitive. */
  lemma {:induction false} CompareToTransitive(a: string, b: string, c: string)
    requires CompareTo(a, b) < 0 && CompareTo(b, c) < 0
    ensures CompareTo(a, c) < 0
  {
    if |a| == 0 {
      // b is non-empty, so c is non-empty too
    } else if |b| == 0 {
    } else if |c| == 0 {
    } else if a[0] != b[0] || b[0] != c[0] {
      if a[0] == b[0] {
        // then b[0] != c[0] decides both
      } else if b[0] == c[0] {
      } else {
      }
    } else {
      CompareToTransitive(a[1..], b[1..], c[1..]);
    }
  }

  /** `compareTo(a, b) <= 0` is a total preorder (in fact a total order). */
  lemma CompareToTotalOrder(a: string, b: string, c: string)
    ensures CompareTo(a, b) <= 0 || CompareTo(b, a) <= 0
    ensures CompareTo(a, b) <= 0 && CompareTo(b, c) <= 0 ==> CompareTo(a, c) <= 0
  {
    CompareToAntisymmetric(a, b);
    if CompareTo(a, b) <= 0 && CompareTo(b, c) <= 0 {
      CompareToZeroIffEqual(a, b);
      CompareToZeroIffEqual(b, c);
      if CompareTo(a, b) < 0 && CompareTo(b, c) < 0 {
        CompareToTransitive(a, b, c);
      }
    }
  }

  /** Index of the first `c` in `s`, if any (`s.indexOf(c)`, with `-1` as `None`). */
  function IndexOf(s: string, c: char): (r: Option<nat>)
    ensures r.None? <==> c !in s
    ensures r.Some? ==> r.value < |s| && s[r.value] == c && c !in s[..r.value]
  {
    if |s| == 0 then None
    else if s[0] == c then Some(0)
    else match IndexOf(s[1..], c)
      case None => None
      case Some(k) => assert s[..k + 1] == [s[0]] + s[1..][..k]; Some(k + 1)
  }

  /** In `a + [c] + b` with no `c` in `a`, the first `c` is the one after `a`. */
  lemma IndexOfAfter(a: string, c: char, b: string)
    requires c !in a
    ensures IndexOf(a + [c] + b, c) == Some(|a|)
  {
    var s := a + [c] + b;
    assert s[..|a|] == a;
    assert s[..|a| + 1][|a|] == c;
  }

  /** The elements joined by ", " with no separator before the first one. */
  function Join(items: seq<string>): (r: string)
    ensures |items| == 0 ==> r == ""
    ensures |items| == 1 ==> r == items[0]
    decreases |items|
  {
    if |items| == 0 then ""
    else if |items| == 1 then items[0]
    else items[0] + ", " + Join(items[1..])
  }

  /** Joining is compatible with concatenation: the two halves are joined
      with one separator between them. */
  lemma {:induction false} JoinAppend(a: seq<string>, b: seq<string>)
    requires |a| > 0 && |b| > 0
    ensures Join(a + b) == Join(a) + ", " + Join(b)
    decreases |a|
  {
    if |a| == 1 {
      assert (a + b)[1..] == b;
    } else {
      assert (a + b)[1..] == a[1..] + b;
      JoinAppend(a[1..], b);
    }
  }

  /** Cuts a string at every `", "`: the inverse of `Join` for elements
      without a comma. */
  function SplitElements(s: string): (r: seq<string>)
    ensures |r| > 0
    decreases |s|
  {
    match IndexOf(s, ',')
    case None => [s]
    case Some(k) =>
      var rest := if k + 2 <= |s| then s[k + 2..] else [];
      [s[..k]] + SplitElements(rest)
  }

  /** Splitting stops at the first separator. */
  lemma SplitAfterFirst(first: string, rest: string)
    requires ',' !in first
    ensures SplitElements(first + ", " + rest) == [first] + SplitElements(rest)
  {
    var s := first + ", " + rest;
    assert s == first + [','] + (" " + rest);
    IndexOfAfter(first, ',', " " + rest);
    assert s[..|first|] == first;
    assert s[|first| + 2..] == rest;
  }

  lemma {:induction false} SplitJoin(items: seq<string>)
    requires |items| > 0
    requires forall i :: 0 <= i < |items| ==> ',' !in items[i]
    ensures SplitElements(Join(items)) == items
    decreases |items|
  {
    if |items| > 1 {
      SplitAfterFirst(items[0], Join(items[1..]));
      SplitJoin(items[1..]);
      assert items == [items[0]] + items[1..];
    }
  }

  /** `Arrays.toString(items)` for a non-null array of already rendered elements. */
  function ArrayToString(items: seq<string>): (r: string)
    ensures |items| == 0 ==> r == "[]"
    ensures |r| >= 2 && r[0] == '[' && r[|r| - 1] == ']'
    ensures r[1..|r| - 1] == Join(items)
  {
    "[" + Join(items) + "]"
  }

  /** Reads an `Arrays.toString` rendering back into its elements. */
  function ParseArray(s: string): Option<seq<string>>
  {
    if |s| < 2 || s[0] != '[' || s[|s| - 1] != ']' then None
    else if |s| == 2 then Some([])
    else Some(SplitElements(s[1..|s| - 1]))
  }

  /** Elements without a comma are read back from their rendering. The one
      array excluded is `[""]`, which renders as `"[]"` just as the empty
      array does. */
  lemma ArrayToStringRoundTrip(items: seq<string>)
    requires forall i :: 0 <= i < |items| ==> ',' !in items[i]
    requires items != [""]
    ensures ParseArray(ArrayToString(items)) == Some(items)
  {
    if |items| > 0 {
      if |items| > 1 {
        var a, b := items[..1], items[1..];
        assert items == a + b;
        JoinAppend(a, b);
      } else {
        assert items == [items[0]];
      }
      SplitJoin(items);
    }
  }
}

=== FILE: service_module.dfy ===
/** The service-method layer of `ServiceModule`: a provider that finds the
    first service method matching a (parameter type, return type) signature,
    with a per-class cache of methods and a per-signature cache of lookups,
    and the lazily bound service method that assembles the argument array of
    a call from the call's argument, pre-resolved never-expiring values and
    freshly resolved ones. */
module ServiceModule {
  import opened Wrappers
  import opened Inject
  import JavaString

  /** A service method, as far as the lookup sees it. */
  datatype Method = Method(declaringClass: Class, name: string, returnType: Type, parameterTypes: seq<Type>)

  /** The provider's fixed collaborators: the bound service classes in
      order, the strategy listing a class's service methods, and the
      rendering of a type used to build signature keys (`Type.toString`). */
  datatype Provider = Provider(serviceClasses: seq<Class>, strategy: Class -> seq<Method>, show: Type -> string)

  /** The provider's two caches. A stored `None` is a cached `null`. The
      counters record how often the strategy was consulted and how often a
      search ran. */
  datatype Caches = Caches(
    methodsCache: map<Class, seq<Method>>,
    methodCache: map<string, Option<Method>>,
    strategyCalls: nat,
    searches: nat)

  const EmptyCaches: Caches := Caches(map[], map[], 0, 0)

  // ---------------------------------------------------------------- lookup, without caches

  predicate Matches(m: Method, parameterType: Type, returnType: Type)
  {
    m.returnType == returnType && parameterType in m.parameterTypes
  }

  /** The first method of `ms` whose return type is the requested one and
      that has a parameter of the requested type. */
  function FirstMatch(ms: seq<Method>, parameterType: Type, returnType: Type): (r: Option<Method>)
    ensures r.None? <==> forall i :: 0 <= i < |ms| ==> !Matches(ms[i], parameterType, returnType)
    ensures r.Some? ==> exists i :: (0 <= i < |ms| && ms[i] == r.value && Matches(ms[i], parameterType, returnType)
      && forall j :: 0 <= j < i ==> !Matches(ms[j], parameterType, returnType))
  {
    if |ms| == 0 then None
    else if Matches(ms[0], parameterType, returnType) then Some(ms[0])
    else
      var r := FirstMatch(ms[1..], parameterType, returnType);
      if r.Some? then
        var i :| 0 <= i < |ms[1..]| && ms[1..][i] == r.value && Matches(ms[1..][i], parameterType, returnType)
          && forall j :: 0 <= j < i ==> !Matches(ms[1..][j], parameterType, returnType);
        assert ms[i + 1] == r.value && forall j :: 0 <= j < i + 1 ==> !Matches(ms[j], parameterType, returnType);
        r
      else r
  }

  lemma {:induction false} FirstMatchAppend(a: seq<Method>, b: seq<Method>, parameterType: Type, returnType: Type)
    ensures FirstMatch(a + b, parameterType, returnType) ==
      if FirstMatch(a, parameterType, returnType).Some? then FirstMatch(a, parameterType, returnType)
      else FirstMatch(b, parameterType, returnType)
  {
    if |a| > 0 {
      assert (a + b)[1..] == a[1..] + b;
      FirstMatchAppend(a[1..], b, parameterType, returnType);
    } else {
      assert a + b == b;
    }
  }

  /** All service methods, class by class, each class's in strategy order. */
  function AllMethods(strategy: Class -> seq<Method>, classes: seq<Class>): seq<Method>
  {
    if |classes| == 0 then [] else strategy(classes[0]) + AllMethods(strategy, classes[1..])
  }

  /** The lookup's reference meaning: the first matching method in
      service-class order, then method order. */
  function Lookup(p: Provider, parameterType: Type, returnType: Type): Option<Method>
  {
    FirstMatch(AllMethods(p.strategy, p.serviceClasses), parameterType, returnType)
  }

  // ---------------------------------------------------------------- lookup, with caches

  /** Every cached method list is the strategy's list for its class. */
  ghost predicate MethodsCacheValid(p: Provider, c: Caches)
  {
    forall k :: k in c.methodsCache ==> c.methodsCache[k] == p.strategy(k)
  }

  /** `serviceClassMethods(service)`: a cached list is returned without
      consulting the strategy; otherwise the strategy's list is stored. */
  function ServiceClassMethods(p: Provider, c: Caches, service: Class): (r: (seq<Method>, Caches))
    ensures service in c.methodsCache ==> r == (c.methodsCache[service], c)
    ensures service !in c.methodsCache ==>
      && r.0 == p.strategy(service)
      && r.1 == c.(methodsCache := c.methodsCache[service := r.0], strategyCalls := c.strategyCalls + 1)
  {
    if service in c.methodsCache then (c.methodsCache[service], c)
    else
      var methods := p.strategy(service);
      (methods, c.(methodsCache := c.methodsCache[service := methods], strategyCalls := c.strategyCalls + 1))
  }

  /** Asking twice for one class returns the identical list, and the second
      call neither consults the strategy nor changes the caches. */
  lemma ServiceClassMethodsMemoised(p: Provider, c: Caches, service: Class)
    ensures var (first, c1) := ServiceClassMethods(p, c, service);
      var (second, c2) := ServiceClassMethods(p, c1, service);
      second == first && c2 == c1 && c1.strategyCalls <= c.strategyCalls + 1
  {
  }

  /** `resolveServiceMethod`: the search over the classes from index `from`,
      filling the methods cache for the classes it visits. */
  function SearchFrom(p: Provider, c: Caches, from: nat, parameterType: Type, returnType: Type): (r: (Option<Method>, Caches))
    requires from <= |p.serviceClasses|
    ensures r.1.methodCache == c.methodCache && r.1.searches == c.searches
    ensures c.methodsCache.Keys <= r.1.methodsCache.Keys
    decreases |p.serviceClasses| - from
  {
    if from == |p.serviceClasses| then (None, c)
    else
      var (methods, c1) := ServiceClassMethods(p, c, p.serviceClasses[from]);
      var found := FirstMatch(methods, parameterType, returnType);
      if found.Some? then (found, c1) else SearchFrom(p, c1, from + 1, parameterType, returnType)
  }

  /** With a valid methods cache the search finds what the reference lookup
      finds, keeps the methods cache valid, and leaves the method cache alone. */
  lemma {:induction false} SearchFromIsLookup(p: Provider, c: Caches, from: nat, parameterType: Type, returnType: Type)
    requires from <= |p.serviceClasses| && MethodsCacheValid(p, c)
    ensures var (found, c') := SearchFrom(p, c, from, parameterType, returnType);
      && found == FirstMatch(AllMethods(p.strategy, p.serviceClasses[from..]), parameterType, returnType)
      && MethodsCacheValid(p, c')
    decreases |p.serviceClasses| - from
  {
    var classes := p.serviceClasses[from..];
    if from < |p.serviceClasses| {
      var (methods, c1) := ServiceClassMethods(p, c, p.serviceClasses[from]);
      assert classes[1..] == p.serviceClasses[from + 1..];
      FirstMatchAppend(methods, AllMethods(p.strategy, classes[1..]), parameterType, returnType);
      SearchFromIsLookup(p, c1, from + 1, parameterType, returnType);
    }
  }

  /** The signature key: `parameterType + "->" + returnType`. */
  function Signature(p: Provider, parameterType: Type, returnType: Type): (r: string)
    ensures var shown := p.show(parameterType);
      && |r| == |shown| + 2 + |p.show(returnType)|
      && r[..|shown|] == shown && r[|shown|..|shown| + 2] == "->" && r[|shown| + 2..] == p.show(returnType)
  {
    p.show(parameterType) + "->" + p.show(returnType)
  }

  /** Signature keys tell signatures apart as long as no rendered parameter
      type contains `-`: two keys are equal exactly when both renderings are. */
  lemma SignatureKeysSeparate(p: Provider, parameterType1: Type, returnType1: Type, parameterType2: Type, returnType2: Type)
    requires '-' !in p.show(parameterType1) && '-' !in p.show(parameterType2)
    ensures Signature(p, parameterType1, returnType1) == Signature(p, parameterType2, returnType2) <==>
      p.show(parameterType1) == p.show(parameterType2) && p.show(returnType1) == p.show(returnType2)
  {
    var a1, b1 := p.show(parameterType1), p.show(returnType1);
    var a2, b2 := p.show(parameterType2), p.show(returnType2);
    assert Signature(p, parameterType1, returnType1) == a1 + ['-'] + (">" + b1);
    assert Signature(p, parameterType2, returnType2) == a2 + ['-'] + (">" + b2);
    JavaString.IndexOfAfter(a1, '-', ">" + b1);
    JavaString.IndexOfAfter(a2, '-', ">" + b2);
  }

  /** `serviceMethod`: a non-null cached method is returned without any
      search; otherwise the search runs and its result, `null` included, is
      stored under the signature. */
  function ServiceMethod(p: Provider, c: Caches, parameterType: Type, returnType: Type): (r: (Option<Method>, Caches))
    ensures var key := Signature(p, parameterType, returnType);
      && (key in c.methodCache && c.methodCache[key].Some? ==> r == (c.methodCache[key], c))
      && (!(key in c.methodCache && c.methodCache[key].Some?) ==>
            && r.0 == SearchFrom(p, c, 0, parameterType, returnType).0
            && r.1.methodCache == c.methodCache[key := r.0]
            && r.1.searches == c.searches + 1)
  {
    var key := Signature(p, parameterType, returnType);
    if key in c.methodCache && c.methodCache[key].Some? then (c.methodCache[key], c)
    else
      var (found, c1) := SearchFrom(p, c, 0, parameterType, returnType);
      (found, c1.(methodCache := c1.methodCache[key := found], searches := c1.searches + 1))
  }

  /** Different signatures render to different keys. */
  ghost predicate SignatureInjective(p: Provider)
  {
    forall a1, b1, a2, b2 :: Signature(p, a1, b1) == Signature(p, a2, b2) ==> a1 == a2 && b1 == b2
  }

  /** Keys never collide when the rendering of types is injective and never
      contains `-`. */
  lemma ShowSeparatesKeys(p: Provider)
    requires forall t :: '-' !in p.show(t)
    requires forall t1, t2 :: p.show(t1) == p.show(t2) ==> t1 == t2
    ensures SignatureInjective(p)
  {
    forall a1, b1, a2, b2 | Signature(p, a1, b1) == Signature(p, a2, b2)
      ensures a1 == a2 && b1 == b2
    {
      SignatureKeysSeparate(p, a1, b1, a2, b2);
    }
  }

  /** Both caches agree with the reference lookup. */
  ghost predicate CachesValid(p: Provider, c: Caches)
  {
    && MethodsCacheValid(p, c)
    && forall a, b :: Signature(p, a, b) in c.methodCache ==> c.methodCache[Signature(p, a, b)] == Lookup(p, a, b)
  }

  lemma EmptyCachesValid(p: Provider)
    ensures CachesValid(p, EmptyCaches)
  {
  }

  /** With valid caches and collision-free keys, the cached lookup returns
      what the reference lookup returns and keeps the caches valid. */
  lemma ServiceMethodIsLookup(p: Provider, c: Caches, parameterType: Type, returnType: Type)
    requires SignatureInjective(p) && CachesValid(p, c)
    ensures var (found, c') := ServiceMethod(p, c, parameterType, returnType);
      found == Lookup(p, parameterType, returnType) && CachesValid(p, c')
  {
    var key := Signature(p, parameterType, returnType);
    if !(key in c.methodCache && c.methodCache[key].Some?) {
      SearchFromIsLookup(p, c, 0, parameterType, returnType);
      assert p.serviceClasses[0..] == p.serviceClasses;
      var (found, c') := ServiceMethod(p, c, parameterType, returnType);
      forall a, b | Signature(p, a, b) in c'.methodCache
        ensures c'.methodCache[Signature(p, a, b)] == Lookup(p, a, b)
      {
        if Signature(p, a, b) == key {
          assert a == parameterType && b == returnType;
        }
      }
    }
  }

  /** A lookup that finds nothing is cached as `null`, which reads as a
      miss: every further call searches again. */
  lemma FailedLookupSearchedAgain(p: Provider, c: Caches, parameterType: Type, returnType: Type)
    requires SignatureInjective(p) && CachesValid(p, c)
    requires Lookup(p, parameterType, returnType).None?
    ensures var (_, c1) := ServiceMethod(p, c, parameterType, returnType);
      var (_, c2) := ServiceMethod(p, c1, parameterType, returnType);
      c1.searches == c.searches + 1 && c2.searches == c.searches + 2
  {
    ServiceMethodIsLookup(p, c, parameterType, returnType);
    var (_, c1) := ServiceMethod(p, c, parameterType, returnType);
    ServiceMethodIsLookup(p, c1, parameterType, returnType);
    var key := Signature(p, parameterType, returnType);
    assert key in c1.methodCache ==> c1.methodCache[key] == None;
  }

  /** A found method is cached: the next call for the signature is a hit
      and performs no search. */
  lemma FoundLookupCached(p: Provider, c: Caches, parameterType: Type, returnType: Type)
    requires SignatureInjective(p) && CachesValid(p, c)
    requires Lookup(p, parameterType, returnType).Some?
    ensures var (m1, c1) := ServiceMethod(p, c, parameterType, returnType);
      ServiceMethod(p, c1, parameterType, returnType) == (m1, c1)
  {
    ServiceMethodIsLookup(p, c, parameterType, returnType);
    var (_, c1) := ServiceMethod(p, c, parameterType, returnType);
    var key := Signature(p, parameterType, returnType);
    assert key in c1.methodCache;
  }

  // ---------------------------------------------------------------- the lazy service method

  /** An injectron as the argument assembly sees it: the opaque view of an
      `Injectorizer.Injectron`, an identifying handle and whether its expiry
      is "never"; `Context.instanceFor` stands for its `instanceFor`. */
  datatype Handle = Handle(id: nat, neverExpires: bool)

  /** The injector's answer to a request for an injectron, and an
      injectron's `instanceFor`. */
  datatype Context = Context(
    injectronFor: Dependency -> Result<Handle, Error>,
    instanceFor: (Handle, Dependency) -> Result<Value, Error>,
    unnamed: Name)

  /** `LazyServiceMethod`: the method, the raw parameter and return classes
      of the service, the method's parameter types, one injectron per
      position (`None` at the service-parameter positions) and the template
      of pre-resolved arguments (`Null` where nothing was pre-resolved). */
  datatype LazyServiceMethod = LazyServiceMethod(
    service: Method,
    parameterType: Class,
    returnType: Class,
    parameterTypes: seq<Type>,
    argumentInjectrons: seq<Option<Handle>>,
    argumentTemplate: seq<Value>)

  /** What the constructor establishes. */
  ghost predicate Valid(s: LazyServiceMethod)
  {
    && |s.argumentInjectrons| == |s.parameterTypes| == |s.argumentTemplate|
    && forall i :: 0 <= i < |s.parameterTypes| ==>
         (s.argumentInjectrons[i].None? <==> s.parameterTypes[i].rawType == s.parameterType)
  }

  /** The engine's own `Injectron` interface, which the service layer asks for. */
  const InjectronClass: Class := Class("de.jbee.inject.Injectron")

  /** The request for the injectron serving parameter type `t`:
      `raw(Injectron.class).parametized(t)`. */
  function InjectronRequest(t: Type, unnamed: Name): (d: Dependency)
    ensures d.instance == Instance(unnamed, Parametized(Raw(InjectronClass), [t]))
    ensures d.hierarchy == [] && !d.expiryIgnored
  {
    DependencyOn(Parametized(Raw(InjectronClass), [t]), unnamed)
  }

  /** `injectrons` is what `argumentInjectrons()` computes for these
      parameter types: nothing at the positions whose raw type is the
      service's parameter type, the resolved `Injectron<T>` elsewhere. */
  ghost predicate InjectronsFor(parameterTypes: seq<Type>, parameterType: Class, ctx: Context, injectrons: seq<Option<Handle>>)
  {
    && |injectrons| == |parameterTypes|
    && (forall i :: 0 <= i < |parameterTypes| ==>
          (injectrons[i].None? <==> parameterTypes[i].rawType == parameterType))
    && (forall i :: 0 <= i < |parameterTypes| && injectrons[i].Some? ==>
          ctx.injectronFor(InjectronRequest(parameterTypes[i], ctx.unnamed)) == Success(injectrons[i].value))
  }

  /** `template` is what `argumentTemplate()` computes from these
      injectrons: the value of each never-expiring one, `Null` elsewhere. */
  ghost predicate TemplateFor(parameterTypes: seq<Type>, injectrons: seq<Option<Handle>>, ctx: Context, template: seq<Value>)
    requires |injectrons| == |parameterTypes|
  {
    && |template| == |parameterTypes|
    && forall i :: 0 <= i < |parameterTypes| ==>
         if injectrons[i].Some? && injectrons[i].value.neverExpires
         then ctx.instanceFor(injectrons[i].value, DependencyOn(parameterTypes[i], ctx.unnamed)) == Success(template[i])
         else template[i] == Null
  }

  /** The injectron of every non-service position before `n` resolves. */
  ghost predicate InjectronsResolveBefore(parameterTypes: seq<Type>, parameterType: Class, ctx: Context, n: int)
    requires n <= |parameterTypes|
  {
    forall j :: 0 <= j < n && parameterTypes[j].rawType != parameterType ==>
      ctx.injectronFor(InjectronRequest(parameterTypes[j], ctx.unnamed)).Success?
  }

  /** The value of every never-expiring injectron before `n` resolves. */
  ghost predicate ValuesResolveBefore(parameterTypes: seq<Type>, parameterType: Class, ctx: Context, n: int)
    requires n <= |parameterTypes|
  {
    forall j :: 0 <= j < n && parameterTypes[j].rawType != parameterType ==>
      var h := ctx.injectronFor(InjectronRequest(parameterTypes[j], ctx.unnamed));
      h.Success? && h.value.neverExpires ==> ctx.instanceFor(h.value, DependencyOn(parameterTypes[j], ctx.unnamed)).Success?
  }

  /** Every resolution the constructor makes succeeds: the injectron of
      each non-service position, and the value of each never-expiring one. */
  ghost predicate AllResolve(parameterTypes: seq<Type>, parameterType: Class, ctx: Context)
  {
    && InjectronsResolveBefore(parameterTypes, parameterType, ctx, |parameterTypes|)
    && ValuesResolveBefore(parameterTypes, parameterType, ctx, |parameterTypes|)
  }

  /** The first resolution the constructor makes that fails, fails with `e`:
      either the injectron pass stops at a position after all earlier
      injectrons resolved, or every injectron resolved and the template pass
      stops at a position after all earlier values resolved. */
  ghost predicate ResolutionFails(parameterTypes: seq<Type>, parameterType: Class, ctx: Context, e: Error)
  {
    || (exists i :: 0 <= i < |parameterTypes| && parameterTypes[i].rawType != parameterType
          && ctx.injectronFor(InjectronRequest(parameterTypes[i], ctx.unnamed)) == Failure(e)
          && InjectronsResolveBefore(parameterTypes, parameterType, ctx, i))
    || (&& InjectronsResolveBefore(parameterTypes, parameterType, ctx, |parameterTypes|)
        && exists i :: 0 <= i < |parameterTypes| && parameterTypes[i].rawType != parameterType
             && ValuesResolveBefore(parameterTypes, parameterType, ctx, i)
             && var h := ctx.injectronFor(InjectronRequest(parameterTypes[i], ctx.unnamed));
             h.Success? && h.value.neverExpires && ctx.instanceFor(h.value, DependencyOn(parameterTypes[i], ctx.unnamed)) == Failure(e))
  }

  /** `argumentInjectrons()`: no injectron where the raw type is the
      service's parameter type, the resolved `Injectron<T>` elsewhere; the
      first failing resolution aborts. */
  method ArgumentInjectrons(parameterTypes: seq<Type>, parameterType: Class, ctx: Context) returns (r: Result<seq<Option<Handle>>, Error>)
    ensures r.Success? ==> InjectronsFor(parameterTypes, parameterType, ctx, r.value)
    ensures r.Failure? ==> exists i :: (0 <= i < |parameterTypes| && parameterTypes[i].rawType != parameterType
      && ctx.injectronFor(InjectronRequest(parameterTypes[i], ctx.unnamed)) == Failure(r.error)
      && InjectronsResolveBefore(parameterTypes, parameterType, ctx, i))
  {
    var res: seq<Option<Handle>> := [];
    for i := 0 to |parameterTypes|
      invariant |res| == i
      invariant forall j :: 0 <= j < i ==> (res[j].None? <==> parameterTypes[j].rawType == parameterType)
      invariant forall j :: 0 <= j < i && res[j].Some? ==> ctx.injectronFor(InjectronRequest(parameterTypes[j], ctx.unnamed)) == Success(res[j].value)
    {
      var paramType := parameterTypes[i];
      if paramType.rawType == parameterType {
        res := res + [None];
      } else {
        var h := ctx.injectronFor(InjectronRequest(paramType, ctx.unnamed));
        if h.Failure? {
          return Failure(h.error);
        }
        res := res + [Some(h.value)];
      }
    }
    r := Success(res);
  }

  /** `argumentTemplate()`: the value of every never-expiring injectron,
      resolved once for its parameter type; `Null` everywhere else. */
  method ArgumentTemplate(parameterTypes: seq<Type>, argumentInjectrons: seq<Option<Handle>>, ctx: Context) returns (r: Result<seq<Value>, Error>)
    requires |argumentInjectrons| == |parameterTypes|
    ensures r.Success? ==> TemplateFor(parameterTypes, argumentInjectrons, ctx, r.value)
    ensures r.Failure? ==> exists i :: (0 <= i < |parameterTypes| && argumentInjectrons[i].Some? && argumentInjectrons[i].value.neverExpires
      && ctx.instanceFor(argumentInjectrons[i].value, DependencyOn(parameterTypes[i], ctx.unnamed)) == Failure(r.error)
      && forall j :: 0 <= j < i && argumentInjectrons[j].Some? && argumentInjectrons[j].value.neverExpires ==>
           ctx.instanceFor(argumentInjectrons[j].value, DependencyOn(parameterTypes[j], ctx.unnamed)).Success?)
  {
    var template: seq<Value> := [];
    for i := 0 to |parameterTypes|
      invariant |template| == i
      invariant forall j :: 0 <= j < i ==>
        if argumentInjectrons[j].Some? && argumentInjectrons[j].value.neverExpires
        then ctx.instanceFor(argumentInjectrons[j].value, DependencyOn(parameterTypes[j], ctx.unnamed)) == Success(template[j])
        else template[j] == Null
    {
      var injectron := argumentInjectrons[i];
      if injectron.Some? && injectron.value.neverExpires {
        var v := ctx.instanceFor(injectron.value, DependencyOn(parameterTypes[i], ctx.unnamed));
        if v.Failure? {
          return Failure(v.error);
        }
        template := template + [v.value];
      } else {
        template := template + [Null];
      }
    }
    r := Success(template);
  }

  /** `actualArguments(params)`: a copy of the template in which every
      service-parameter position holds the call's argument, and every other
      position keeps its non-null template value or gets a freshly resolved
      one. The template itself is an immutable sequence and stays as it is. */
  method ActualArguments(s: LazyServiceMethod, params: Value, ctx: Context) returns (r: Result<seq<Value>, Error>)
    requires Valid(s)
    ensures r.Success? ==> |r.value| == |s.parameterTypes|
    ensures r.Success? ==> forall i :: 0 <= i < |s.parameterTypes| ==>
      if s.parameterTypes[i].rawType == s.parameterType then r.value[i] == params
      else if s.argumentTemplate[i] != Null then r.value[i] == s.argumentTemplate[i]
      else ctx.instanceFor(s.argumentInjectrons[i].value, DependencyOn(s.parameterTypes[i], ctx.unnamed)) == Success(r.value[i])
    ensures r.Failure? ==> exists i :: (0 <= i < |s.parameterTypes| && s.parameterTypes[i].rawType != s.parameterType
      && s.argumentTemplate[i] == Null
      && ctx.instanceFor(s.argumentInjectrons[i].value, DependencyOn(s.parameterTypes[i], ctx.unnamed)) == Failure(r.error)
      && forall j :: 0 <= j < i && s.parameterTypes[j].rawType != s.parameterType && s.argumentTemplate[j] == Null ==>
           ctx.instanceFor(s.argumentInjectrons[j].value, DependencyOn(s.parameterTypes[j], ctx.unnamed)).Success?)
  {
    var args := s.argumentTemplate;
    for i := 0 to |args|
      invariant |args| == |s.parameterTypes|
      invariant forall j :: i <= j < |args| ==> args[j] == s.argumentTemplate[j]
      invariant forall j :: 0 <= j < i ==>
        if s.parameterTypes[j].rawType == s.parameterType then args[j] == params
        else if s.argumentTemplate[j] != Null then args[j] == s.argumentTemplate[j]
        else ctx.instanceFor(s.argumentInjectrons[j].value, DependencyOn(s.parameterTypes[j], ctx.unnamed)) == Success(args[j])
    {
      var paramType := s.parameterTypes[i];
      if paramType.rawType == s.parameterType {
        args := args[i := params];
      } else if args[i] == Null {
        var v := ctx.instanceFor(s.argumentInjectrons[i].value, DependencyOn(paramType, ctx.unnamed));
        if v.Failure? {
          return Failure(v.error);
        }
        args := args[i := v.value];
      }
    }
    r := Success(args);
  }

  /** `s` is the lazy service method the constructor builds for `m`: the
      method, its classes and parameter types, and exactly the injectrons
      and the template the two resolution passes compute. */
  ghost predicate BuiltFor(s: LazyServiceMethod, m: Method, parameterType: Class, returnType: Class, ctx: Context)
  {
    && s.service == m && s.parameterTypes == m.parameterTypes
    && s.parameterType == parameterType && s.returnType == returnType
    && InjectronsFor(m.parameterTypes, parameterType, ctx, s.argumentInjectrons)
    && TemplateFor(m.parameterTypes, s.argumentInjectrons, ctx, s.argumentTemplate)
  }

  /** `new LazyServiceMethod(...)`: resolves the injectrons, then the
      template. It fails exactly when one of those resolutions fails, and
      then with the error of the first one that fails. */
  method NewLazyServiceMethod(m: Method, parameterType: Class, returnType: Class, ctx: Context) returns (r: Result<LazyServiceMethod, Error>)
    ensures r.Success? <==> AllResolve(m.parameterTypes, parameterType, ctx)
    ensures r.Success? ==> BuiltFor(r.value, m, parameterType, returnType, ctx) && Valid(r.value)
    ensures r.Failure? ==> ResolutionFails(m.parameterTypes, parameterType, ctx, r.error)
  {
    var injectrons := ArgumentInjectrons(m.parameterTypes, parameterType, ctx);
    if injectrons.Failure? {
      return Failure(injectrons.error);
    }
    var template := ArgumentTemplate(m.parameterTypes, injectrons.value, ctx);
    if template.Failure? {
      return Failure(template.error);
    }
    r := Success(LazyServiceMethod(m, parameterType, returnType, m.parameterTypes, injectrons.value, template.value));
    BuiltForResolves(r.value, m, parameterType, returnType, ctx);
  }

  /** A built lazy service method is valid, and every resolution behind it succeeded. */
  lemma BuiltForResolves(s: LazyServiceMethod, m: Method, parameterType: Class, returnType: Class, ctx: Context)
    requires BuiltFor(s, m, parameterType, returnType, ctx)
    ensures Valid(s) && AllResolve(m.parameterTypes, parameterType, ctx)
  {
  }

  /** The two resolution passes leave no choice: two lazy service methods
      built for the same method, classes and injector are the same. */
  lemma BuiltForUnique(s1: LazyServiceMethod, s2: LazyServiceMethod, m: Method, parameterType: Class, returnType: Class, ctx: Context)
    requires BuiltFor(s1, m, parameterType, returnType, ctx) && BuiltFor(s2, m, parameterType, returnType, ctx)
    ensures s1 == s2
  {
  }

  /** `provide(parameterType, returnType)`: the cached lookup, then the lazy
      service method for what it found. Finding nothing ends in the
      `NullPointerException` of dereferencing the missing method; a found
      method is built unless one of its resolutions fails, and otherwise the
      first failing resolution's error is returned. */
  method Provide(p: Provider, c: Caches, parameterType: Type, returnType: Type, ctx: Context)
    returns (r: Result<LazyServiceMethod, Error>, c': Caches)
    ensures c' == ServiceMethod(p, c, parameterType, returnType).1
    ensures var found := ServiceMethod(p, c, parameterType, returnType).0;
      && (found.None? ==> r == Failure(NullPointer))
      && (found.Some? ==>
            && (r.Success? <==> AllResolve(found.value.parameterTypes, parameterType.rawType, ctx))
            && (r.Success? ==> BuiltFor(r.value, found.value, parameterType.rawType, returnType.rawType, ctx))
            && (r.Failure? ==> ResolutionFails(found.value.parameterTypes, parameterType.rawType, ctx, r.error)))
  {
    var looked := ServiceMethod(p, c, parameterType, returnType);
    var found := looked.0;
    c' := looked.1;
    if found.None? {
      return Failure(NullPointer), c';
    }
    r := NewLazyServiceMethod(found.value, parameterType.rawType, returnType.rawType, ctx);
  }
}

=== FILE: supply.dfy ===
/** The supplier combinators of `Supply`: the always-failing placeholder,
    the constant, the array-to-list and array-to-set bridges, the provider
    bridge, the state-dependent name switch, the elements supplier, the
    index-wise parameter fill and the `describe` renderings. */
module Supply {
  import opened Wrappers
  import opened Inject
  import JavaString

  /** A bound parameter: the type it stands for, plus an identity. How it
      supplies its value is the collaborator `Env.supplyParameter`. */
  datatype Parameter = Parameter(typ: Type, id: nat)

  /** What a supplier may call: the injector, the parameters' own `supply`,
      and `Name.named` applied to a resolved state value. */
  datatype Env = Env(
    injector: Injector,
    supplyParameter: (Parameter, Dependency) -> Result<Value, Error>,
    named: Value -> Name,
    unnamed: Name)

  /** The two adaptations an array bridge can apply to the resolved array. */
  datatype Bridge = ToList | ToSet

  /** The supplier variants of the core, one constructor each. */
  datatype Supplier =
    | Required
    | Constant(constant: Value)
    | ArrayBridge(bridge: Bridge)
    | ProviderBridge
    | StateDependent(typ: Type, state: Dependency)
    | Elements(elementType: Type, elements: seq<Parameter>)

  const NeverCalled: string := "Should never be called!"

  /** `Supply.elements(arrayType, elements)`: the array type is an array
      type by its static Java type; the supplier keeps its element type. */
  function ElementsSupplier(arrayType: Type, elements: seq<Parameter>): (s: Supplier)
    requires IsArrayClass(arrayType.rawType)
    ensures s.Elements? && s.elements == elements
    ensures ArrayType(s.elementType) == arrayType
  {
    Elements(ElementType(arrayType), elements)
  }

  /** `supplier.supply(dependency, injector)` for every variant. */
  function Supply(s: Supplier, dependency: Dependency, env: Env): (r: Result<Value, Error>)
    ensures s.Required? ==> r == Failure(Unsupported(NeverCalled))
    ensures s.Constant? ==> r == Success(s.constant)
    ensures (s.ArrayBridge? || s.ProviderBridge?) && |dependency.instance.typ.parameters| == 0 ==> r == Failure(IndexOutOfBounds(0))
    ensures s.ArrayBridge? && r.Success? ==> (if s.bridge == ToList then r.value.ListOf? else r.value.SetOf?)
    ensures s.ProviderBridge? && r.Success? ==> r.value.LazyProvider?
    ensures s.StateDependent? && env.injector(s.state).Failure? ==> r == Failure(env.injector(s.state).error)
    ensures s.Elements? && r.Success? ==> r.value.Arr? && |r.value.elements| == |s.elements|
  {
    match s
    case Required => SupplyRequired(dependency, env)
    case Constant(c) => SupplyConstant(c, dependency, env)
    case ArrayBridge(b) => SupplyBridged(b, dependency, env)
    case ProviderBridge => SupplyProvider(dependency, env)
    case StateDependent(t, state) => SupplyStateDependent(t, state, dependency, env)
    case Elements(e, ps) => SupplyElements(e, ps, dependency, env)
  }

  // ---------------------------------------------------------------- required, constant

  /** The placeholder for a required but unbound resource fails on every call. */
  function SupplyRequired(dependency: Dependency, env: Env): (r: Result<Value, Error>)
    ensures r.Failure? && r.error == Unsupported(NeverCalled)
  {
    Failure(Unsupported(NeverCalled))
  }

  /** The constant supplier returns its constant and never fails. */
  function SupplyConstant(c: Value, dependency: Dependency, env: Env): (r: Result<Value, Error>)
    ensures r.Success? && r.value == c
  {
    Success(c)
  }

  /** Whatever is asked, of whichever injector, the required supplier yields no value. */
  lemma RequiredNeverSupplies(dependency: Dependency, env: Env)
    ensures Supply(Required, dependency, env).Failure?
  {
  }

  /** The constant supplier does not look at the dependency or the injector. */
  lemma ConstantIgnoresDependency(c: Value, d1: Dependency, e1: Env, d2: Dependency, e2: Env)
    ensures Supply(Constant(c), d1, e1) == Supply(Constant(c), d2, e2) == Success(c)
  {
  }

  // ---------------------------------------------------------------- array bridges

  /** The array type of the requested type's first type argument, requested
      under the same name and in the same hierarchy. */
  function ElementArrayDependency(dependency: Dependency): Dependency
    requires |dependency.instance.typ.parameters| > 0
  {
    dependency.Typed(ArrayType(dependency.instance.typ.parameters[0]))
  }

  /** `Arrays.asList(elements)` and `new HashSet(Arrays.asList(elements))`;
      a `null` array is a `NullPointerException`, anything else than an array
      fails the cast. */
  function Adapt(b: Bridge, resolved: Value): (r: Result<Value, Error>)
    ensures r.Success? <==> resolved.Arr?
    ensures resolved.Null? ==> r == Failure(NullPointer)
    ensures !resolved.Arr? && !resolved.Null? ==> r == Failure(ClassCast)
    ensures r.Success? && b == ToList ==> r.value == ListOf(resolved.elements)
    ensures r.Success? && b == ToSet ==> r.value.SetOf? && (forall x :: x in r.value.members <==> x in resolved.elements)
  {
    match resolved
    case Arr(xs) => if b == ToList then Success(ListOf(xs)) else Success(SetOf(set x | x in xs))
    case Null => Failure(NullPointer)
    case _ => Failure(ClassCast)
  }

  /** An array bridge resolves the array of the requested type's first type
      argument and adapts it; it fails when there is no type argument or the
      array cannot be resolved. */
  function SupplyBridged(b: Bridge, dependency: Dependency, env: Env): (r: Result<Value, Error>)
    ensures |dependency.instance.typ.parameters| == 0 ==> r == Failure(IndexOutOfBounds(0))
    ensures |dependency.instance.typ.parameters| > 0 ==>
      var resolved := env.injector(ElementArrayDependency(dependency));
      && (resolved.Failure? ==> r == Failure(resolved.error))
      && (resolved.Success? ==> r == Adapt(b, resolved.value))
  {
    var elementType :- TypeParameter(dependency.instance.typ, 0);
    var resolved :- env.injector(dependency.Typed(ArrayType(elementType)));
    Adapt(b, resolved)
  }

  /** The list bridge keeps the resolved array: same length, same order. */
  lemma ListBridgeKeepsArray(dependency: Dependency, env: Env, xs: seq<Value>)
    requires |dependency.instance.typ.parameters| > 0
    requires env.injector(ElementArrayDependency(dependency)) == Success(Arr(xs))
    ensures SupplyBridged(ToList, dependency, env).Success?
    ensures var l := SupplyBridged(ToList, dependency, env).value;
      l.ListOf? && |l.items| == |xs| && forall i :: 0 <= i < |xs| ==> l.items[i] == xs[i]
  {
  }

  /** No two positions of `xs` hold the same value. */
  predicate Distinct<T(==)>(xs: seq<T>)
  {
    forall i, j :: 0 <= i < j < |xs| ==> xs[i] != xs[j]
  }

  /** The set of a sequence has at most as many members as the sequence has
      positions, and exactly as many when its elements are distinct. */
  lemma {:induction false} SetOfSeqSize<T>(xs: seq<T>)
    ensures |set x | x in xs| <= |xs|
    ensures |set x | x in xs| == |xs| <==> Distinct(xs)
  {
    if |xs| == 0 {
      assert (set x | x in xs) == {};
    } else {
      var head, tail := xs[0], xs[1..];
      SetOfSeqSize(tail);
      var s, t := set x | x in xs, set x | x in tail;
      assert s == t + {head} by {
        forall x ensures x in s <==> x in t + {head} {
          if x in xs {
            var k :| 0 <= k < |xs| && xs[k] == x;
            assert k == 0 || xs[k] == tail[k - 1];
          }
        }
      }
      if head in tail {
        assert s == t;
        var k :| 0 <= k < |tail| && tail[k] == head;
        assert xs[0] == xs[k + 1];
      } else {
        assert |s| == |t| + 1;
        if Distinct(tail) {
          forall i, j | 0 <= i < j < |xs| ensures xs[i] != xs[j] {
            if i == 0 {
              assert xs[j] == tail[j - 1];
            } else {
              assert xs[i] == tail[i - 1] && xs[j] == tail[j - 1];
            }
          }
        } else {
          var i, j :| 0 <= i < j < |tail| && tail[i] == tail[j];
          assert xs[i + 1] == xs[j + 1];
        }
      }
    }
  }

  /** The set bridge holds exactly the array's elements with duplicates
      dropped: it loses members exactly when the array has duplicates. */
  lemma SetBridgeDropsDuplicates(dependency: Dependency, env: Env, xs: seq<Value>)
    requires |dependency.instance.typ.parameters| > 0
    requires env.injector(ElementArrayDependency(dependency)) == Success(Arr(xs))
    ensures SupplyBridged(ToSet, dependency, env).Success?
    ensures var s := SupplyBridged(ToSet, dependency, env).value;
      && s.SetOf?
      && (forall x :: x in s.members <==> x in xs)
      && |s.members| <= |xs|
      && (|s.members| == |xs| <==> Distinct(xs))
  {
    var s := SupplyBridged(ToSet, dependency, env).value;
    assert s.members == set x | x in xs;
    SetOfSeqSize(xs);
  }

  // ---------------------------------------------------------------- provider bridge

  /** The provider bridge hands out a lazy provider for the requested type's
      first type argument: a request with a name of its own passes that name
      on, a default-named one leaves the name `onTypeParameter` gives; the
      injection hierarchy is dropped and scope expiry ignored. */
  function SupplyProvider(dependency: Dependency, env: Env): (r: Result<Value, Error>)
    ensures r.Success? <==> |dependency.instance.typ.parameters| > 0
    ensures r.Failure? ==> r.error == IndexOutOfBounds(0)
    ensures r.Success? ==>
      && r.value.LazyProvider?
      && r.value.dependency.instance.typ == dependency.instance.typ.parameters[0]
      && r.value.dependency.instance.name == (if dependency.instance.name != Default then dependency.instance.name else env.unnamed)
      && r.value.dependency.hierarchy == []
      && r.value.dependency.expiryIgnored
  {
    var onParameter :- dependency.OnTypeParameter(env.unnamed);
    var provided := if dependency.instance.name != Default then onParameter.WithName(dependency.instance.name) else onParameter;
    Success(LazyProvider(provided.Uninject().IgnoredExpiry()))
  }

  /** For a request with a name of its own, the provided dependency is the
      request itself retyped to its first type argument, taken out of its
      hierarchy and ignoring expiry; a default-named request differs from
      that only in taking the fresh request's name. */
  lemma ProviderBridgeRetypes(dependency: Dependency, env: Env)
    requires |dependency.instance.typ.parameters| > 0
    ensures var provided := dependency.Typed(dependency.instance.typ.parameters[0]).Uninject().IgnoredExpiry();
      && (dependency.instance.name != Default ==> SupplyProvider(dependency, env) == Success(LazyProvider(provided)))
      && (dependency.instance.name == Default ==> SupplyProvider(dependency, env) == Success(LazyProvider(provided.WithName(env.unnamed))))
  {
  }

  // ---------------------------------------------------------------- state dependent

  /** The request for `typ` named after a state value. */
  function StateRequest(typ: Type, dependency: Dependency, env: Env, state: Value): Dependency
  {
    dependency.Instanced(Instance(env.named(state), typ))
  }

  predicate IsNoSuchResource(r: Result<Value, Error>)
  {
    r.Failure? && r.error.NoSuchResource?
  }

  /** Resolving `typ` under the name of a resolved state: a missing resource
      under a non-null state is retried once under the name of the `null`
      state (the "try default" of the source); under the null state the
      failure stands. Other outcomes are returned as they are. */
  function SupplyInState(typ: Type, dependency: Dependency, env: Env, state: Value): (r: Result<Value, Error>)
    ensures var first := env.injector(StateRequest(typ, dependency, env, state));
      var fallback := env.injector(StateRequest(typ, dependency, env, Null));
      && (!IsNoSuchResource(first) ==> r == first)
      && (IsNoSuchResource(first) && state != Null ==> r == fallback)
      && (IsNoSuchResource(first) && state == Null ==> r == first)
    decreases if state == Null then 0 else 1
  {
    var first := env.injector(StateRequest(typ, dependency, env, state));
    if IsNoSuchResource(first) && state != Null then SupplyInState(typ, dependency, env, Null)
    else first
  }

  /** The state-dependent supplier first resolves the state, then switches
      on its name. */
  function SupplyStateDependent(typ: Type, state: Dependency, dependency: Dependency, env: Env): (r: Result<Value, Error>)
    ensures env.injector(state).Failure? ==> r == Failure(env.injector(state).error)
    ensures env.injector(state).Success? ==> r == SupplyInState(typ, dependency, env, env.injector(state).value)
  {
    var actual :- env.injector(state);
    SupplyInState(typ, dependency, env, actual)
  }

  /** The name switch consults at most two names: the one of the state and the one of `null`. */
  lemma StateDependentAtMostOneRetry(typ: Type, dependency: Dependency, env: Env, state: Value)
    ensures var r := SupplyInState(typ, dependency, env, state);
      || r == env.injector(StateRequest(typ, dependency, env, state))
      || r == env.injector(StateRequest(typ, dependency, env, Null))
  {
  }

  // ---------------------------------------------------------------- elements, parameters

  /** Supplying each of `ps` in turn: all values in order, or the error of the first failure. */
  function SupplyEach<P>(ps: seq<P>, f: P -> Result<Value, Error>): (r: Result<seq<Value>, Error>)
    ensures r.Success? <==> forall i :: 0 <= i < |ps| ==> f(ps[i]).Success?
    ensures r.Success? ==> |r.value| == |ps| && forall i :: 0 <= i < |ps| ==> r.value[i] == f(ps[i]).value
    ensures r.Failure? ==> exists k :: 0 <= k < |ps| && f(ps[k]) == Failure(r.error) && forall j :: 0 <= j < k ==> f(ps[j]).Success?
  {
    if |ps| == 0 then Success([])
    else
      var head :- f(ps[0]);
      var tail :- SupplyEach(ps[1..], f);
      Success([head] + tail)
  }

  /** The Java loop filling an argument array index by index, stopping at
      the first exception. */
  method FillEach<P>(ps: seq<P>, f: P -> Result<Value, Error>) returns (r: Result<seq<Value>, Error>)
    ensures r == SupplyEach(ps, f)
  {
    var args: seq<Value> := [];
    var i := 0;
    while i < |ps|
      invariant 0 <= i <= |ps|
      invariant |args| == i
      invariant forall j :: 0 <= j < i ==> f(ps[j]).Success? && args[j] == f(ps[j]).value
    {
      var v := f(ps[i]);
      if v.Failure? {
        SupplyEachFirstFailure(ps, f, i);
        return Failure(v.error);
      }
      args := args + [v.value];
      i := i + 1;
    }
    assert SupplyEach(ps, f).Success?;
    assert SupplyEach(ps, f).value == args;
    r := Success(args);
  }

  /** When everything before `k` succeeds and `k` fails, `SupplyEach` fails with `k`'s error. */
  lemma {:induction false} SupplyEachFirstFailure<P>(ps: seq<P>, f: P -> Result<Value, Error>, k: nat)
    requires k < |ps| && f(ps[k]).Failure?
    requires forall j :: 0 <= j < k ==> f(ps[j]).Success?
    ensures SupplyEach(ps, f) == Failure(f(ps[k]).error)
  {
    if k > 0 {
      assert f(ps[0]).Success?;
      SupplyEachFirstFailure(ps[1..], f, k - 1);
    }
  }

  /** The elements supplier returns an array with one entry per bound
      element, the i-th supplied by the i-th element for the request retyped
      to the element type; the first failing element's error aborts it. */
  function SupplyElements(elementType: Type, elements: seq<Parameter>, dependency: Dependency, env: Env): (r: Result<Value, Error>)
    ensures var elementDependency := dependency.Typed(elementType);
      && (r.Success? <==> forall i :: 0 <= i < |elements| ==> env.supplyParameter(elements[i], elementDependency).Success?)
      && (r.Success? ==> (r.value.Arr? && |r.value.elements| == |elements|
            && forall i :: 0 <= i < |elements| ==> r.value.elements[i] == env.supplyParameter(elements[i], elementDependency).value))
      && (r.Failure? ==> exists k :: (0 <= k < |elements| && env.supplyParameter(elements[k], elementDependency) == Failure(r.error)
            && forall j :: 0 <= j < k ==> env.supplyParameter(elements[j], elementDependency).Success?))
  {
    var elementDependency := dependency.Typed(elementType);
    var values :- SupplyEach(elements, (e: Parameter) => env.supplyParameter(e, elementDependency));
    Success(Arr(values))
  }

  /** The request a parameter is supplied for: its type under any name,
      in the parent's hierarchy. */
  function ParameterRequest(parent: Dependency, p: Parameter): Dependency
  {
    parent.Instanced(AnyOf(p.typ))
  }

  /** `resolveParameters`: no arguments for no parameters; otherwise the
      i-th argument is the i-th parameter supplied for its own type under
      any name; the first failure aborts. */
  method ResolveParameters(parent: Dependency, env: Env, params: seq<Parameter>) returns (r: Result<seq<Value>, Error>)
    ensures |params| == 0 ==> r == Success([])
    ensures r.Success? <==> forall i :: 0 <= i < |params| ==> env.supplyParameter(params[i], ParameterRequest(parent, params[i])).Success?
    ensures r.Success? ==> |r.value| == |params|
    ensures r.Success? ==> forall i :: 0 <= i < |params| ==> r.value[i] == env.supplyParameter(params[i], ParameterRequest(parent, params[i])).value
    ensures r.Failure? ==> exists k :: (0 <= k < |params| && env.supplyParameter(params[k], ParameterRequest(parent, params[k])) == Failure(r.error)
      && forall j :: 0 <= j < k ==> env.supplyParameter(params[j], ParameterRequest(parent, params[j])).Success?)
  {
    if |params| == 0 {
      return Success([]);
    }
    r := FillEach(params, (p: Parameter) => env.supplyParameter(p, ParameterRequest(parent, p)));
  }

  // ---------------------------------------------------------------- describe

  /** `describe(behaviour)`: `<behaviour>`. */
  function Describe(behaviour: string): (r: string)
    ensures |r| == |behaviour| + 2 && r[0] == '<' && r[|r| - 1] == '>'
    ensures r[1..|r| - 1] == behaviour
  {
    "<" + behaviour + ">"
  }

  /** `describe(behaviour, variant)`: `<behaviour:variant>`. */
  function DescribeVariant(behaviour: string, variant: string): (r: string)
    ensures |r| == |behaviour| + |variant| + 3 && r[0] == '<' && r[|r| - 1] == '>'
    ensures r[1..|behaviour| + 1] == behaviour && r[|behaviour| + 1] == ':'
    ensures r[|behaviour| + 2..|r| - 1] == variant
  {
    "<" + behaviour + ":" + variant + ">"
  }

  /** `describe(behaviour, variants)`: the variants rendered as by `Arrays.toString`. */
  function DescribeVariants(behaviour: string, variants: seq<string>): (r: string)
    ensures |variants| == 0 ==> r == "<" + behaviour + ":[]>"
    ensures ':' !in behaviour ==> ParseDescription(r) == Some((behaviour, Some(JavaString.ArrayToString(variants))))
  {
    var rendered := JavaString.ArrayToString(variants);
    if ':' in behaviour then DescribeVariant(behaviour, rendered)
    else DescribeRoundTrip(behaviour, rendered); DescribeVariant(behaviour, rendered)
  }

  /** Reads a description back: the behaviour before the first `:`, and the
      variant after it if there is one. */
  function ParseDescription(s: string): Option<(string, Option<string>)>
  {
    if |s| < 2 || s[0] != '<' || s[|s| - 1] != '>' then None
    else
      var inner := s[1..|s| - 1];
      match JavaString.IndexOf(inner, ':')
      case None => Some((inner, None))
      case Some(k) => Some((inner[..k], Some(inner[k + 1..])))
  }

  /** A behaviour without `:` is recovered from both description forms, and
      the variant is recovered whole (even when it contains `:`). */
  lemma DescribeRoundTrip(behaviour: string, variant: string)
    requires ':' !in behaviour
    ensures ParseDescription(Describe(behaviour)) == Some((behaviour, None))
    ensures ParseDescription(DescribeVariant(behaviour, variant)) == Some((behaviour, Some(variant)))
  {
    var d := DescribeVariant(behaviour, variant);
    var inner := d[1..|d| - 1];
    assert inner == behaviour + ":" + variant;
    assert inner[..|behaviour|] == behaviour;
    assert JavaString.IndexOf(inner, ':') == Some(|behaviour|);
    assert inner[|behaviour| + 1..] == variant;
  }

  /** A behaviour without `:` and variants without `,` are read back from
      the many-variant description (except the `[""]` array, whose rendering
      is that of the empty array). */
  lemma DescribeVariantsRoundTrip(behaviour: string, variants: seq<string>)
    requires ':' !in behaviour
    requires forall i :: 0 <= i < |variants| ==> ',' !in variants[i]
    requires variants != [""]
    ensures var d := ParseDescription(DescribeVariants(behaviour, variants));
      && d.Some? && d.value.0 == behaviour && d.value.1.Some?
      && JavaString.ParseArray(d.value.1.value) == Some(variants)
  {
    JavaString.ArrayToStringRoundTrip(variants);
  }
}

=== FILE: typecast.dfy ===
/** The generic type constructors of `Typecast`: each wraps a given type as
    the single type argument of a fixed raw class. */
module Typecast {
  import opened Inject

  /** The raw classes the constructors wrap with. */
  datatype Wrapper = ListOfT | SetOfT | CollectionOfT | ProviderOfT | FactoryOfT | InjectronOfT | InjectronsOfT

  const ListClass: Class := Class("java.util.List")
  const SetClass: Class := Class("java.util.Set")
  const CollectionClass: Class := Class("java.util.Collection")
  const ProviderClass: Class := Class("se.jbee.inject.container.Provider")
  const FactoryClass: Class := Class("se.jbee.inject.container.Factory")
  const InjectronClass: Class := Class("se.jbee.inject.Injectron")

  function WrapperClass(w: Wrapper): Class
  {
    match w
    case ListOfT => ListClass
    case SetOfT => SetClass
    case CollectionOfT => CollectionClass
    case ProviderOfT => ProviderClass
    case FactoryOfT => FactoryClass
    case InjectronOfT => InjectronClass
    case InjectronsOfT => ArrayClass(InjectronClass)
  }

  /** `raw(<wrapper class>).parametized(t)`. */
  function WrappedTypeOf(w: Wrapper, t: Type): (r: Type)
    ensures r.rawType == WrapperClass(w) && r.parameters == [t] && !r.upperBound
  {
    Parametized(Raw(WrapperClass(w)), [t])
  }

  function ListTypeOf(elementType: Type): (r: Type)
    ensures r.rawType == ListClass && r.parameters == [elementType] && !r.upperBound
  {
    WrappedTypeOf(ListOfT, elementType)
  }

  function SetTypeOf(elementType: Type): (r: Type)
    ensures r.rawType == SetClass && r.parameters == [elementType] && !r.upperBound
  {
    WrappedTypeOf(SetOfT, elementType)
  }

  function CollectionTypeOf(elementType: Type): (r: Type)
    ensures r.rawType == CollectionClass && r.parameters == [elementType] && !r.upperBound
  {
    WrappedTypeOf(CollectionOfT, elementType)
  }

  function ProviderTypeOf(providedType: Type): (r: Type)
    ensures r.rawType == ProviderClass && r.parameters == [providedType] && !r.upperBound
  {
    WrappedTypeOf(ProviderOfT, providedType)
  }

  function FactoryTypeOf(providedType: Type): (r: Type)
    ensures r.rawType == FactoryClass && r.parameters == [providedType] && !r.upperBound
  {
    WrappedTypeOf(FactoryOfT, providedType)
  }

  function InjectronTypeOf(providedType: Type): (r: Type)
    ensures r.rawType == InjectronClass && r.parameters == [providedType] && !r.upperBound
  {
    WrappedTypeOf(InjectronOfT, providedType)
  }

  /** The array raw type `Injectron[]`, parameterised by the provided type. */
  function InjectronsTypeOf(providedType: Type): (r: Type)
    ensures IsArrayClass(r.rawType) && ComponentClass(r.rawType) == InjectronClass
    ensures r.parameters == [providedType] && !r.upperBound
  {
    WrappedTypeOf(InjectronsOfT, providedType)
  }

  /** The `Class` overloads: each is the `Type` overload applied to `raw(c)`. */
  function ListTypeOfClass(c: Class): (r: Type)
    ensures r.rawType == ListClass && r.parameters == [Raw(c)] && !r.upperBound
  {
    ListTypeOf(Raw(c))
  }

  function SetTypeOfClass(c: Class): (r: Type)
    ensures r.rawType == SetClass && r.parameters == [Raw(c)] && !r.upperBound
  {
    SetTypeOf(Raw(c))
  }

  function CollectionTypeOfClass(c: Class): (r: Type)
    ensures r.rawType == CollectionClass && r.parameters == [Raw(c)] && !r.upperBound
  {
    CollectionTypeOf(Raw(c))
  }

  function ProviderTypeOfClass(c: Class): (r: Type)
    ensures r.rawType == ProviderClass && r.parameters == [Raw(c)] && !r.upperBound
  {
    ProviderTypeOf(Raw(c))
  }

  function FactoryTypeOfClass(c: Class): (r: Type)
    ensures r.rawType == FactoryClass && r.parameters == [Raw(c)] && !r.upperBound
  {
    FactoryTypeOf(Raw(c))
  }

  function InjectronTypeOfClass(c: Class): (r: Type)
    ensures r.rawType == InjectronClass && r.parameters == [Raw(c)] && !r.upperBound
  {
    InjectronTypeOf(Raw(c))
  }

  function InjectronsTypeOfClass(c: Class): (r: Type)
    ensures r.rawType == ArrayClass(InjectronClass) && r.parameters == [Raw(c)] && !r.upperBound
  {
    InjectronsTypeOf(Raw(c))
  }

  /** Each `Class` overload is the `Type` overload applied to `raw(c)`. */
  lemma ClassOverloadsAreRaw(c: Class)
    ensures ListTypeOfClass(c) == ListTypeOf(Raw(c))
    ensures SetTypeOfClass(c) == SetTypeOf(Raw(c))
    ensures CollectionTypeOfClass(c) == CollectionTypeOf(Raw(c))
    ensures ProviderTypeOfClass(c) == ProviderTypeOf(Raw(c))
    ensures FactoryTypeOfClass(c) == FactoryTypeOf(Raw(c))
    ensures InjectronTypeOfClass(c) == InjectronTypeOf(Raw(c))
    ensures InjectronsTypeOfClass(c) == InjectronsTypeOf(Raw(c))
  {
  }

  /** The seven raw classes are pairwise distinct. */
  lemma WrapperClassInjective(w1: Wrapper, w2: Wrapper)
    ensures WrapperClass(w1) == WrapperClass(w2) <==> w1 == w2
  {
  }

  /** Constructed types are equal exactly when both the wrapper and the
      wrapped type are: different element types give different types, and
      no two constructors ever build the same type. */
  lemma WrappedTypeOfInjective(w1: Wrapper, t1: Type, w2: Wrapper, t2: Type)
    ensures WrappedTypeOf(w1, t1) == WrappedTypeOf(w2, t2) <==> w1 == w2 && t1 == t2
  {
    WrapperClassInjective(w1, w2);
    if WrappedTypeOf(w1, t1) == WrappedTypeOf(w2, t2) {
      assert WrappedTypeOf(w1, t1).parameters[0] == t1;
      assert WrappedTypeOf(w2, t2).parameters[0] == t2;
    }
  }
}

=== FILE: wrappers.dfy ===
/** Failure-compatible result types shared by the whole model. A Java method
    that either returns a value or throws is modelled as a `Result`; a Java
    reference that may be `null` as an `Option`. */
module Wrappers {

  datatype Option<+T> = None | Some(value: T)

  datatype Result<+T, +E> = Success(value: T) | Failure(error: E) {

    predicate IsFailure() {
      Failure?
    }

    function PropagateFailure<U>(): Result<U, E>
      requires Failure?
    {
      Failure(error)
    }

    function Extract(): T
      requires Success?
    {
      value
    }
  }
}
